=== FILE: README.md ===
# Snow drift and price-area map helpers, in Dafny

This project models two computational pieces of a Streamlit weather and energy dashboard.

**The snow-drift estimator (`pages/Snowdrift.py`).** It covers:

- the wind-power-law transport potential Qupot, the sum of u^3.8·dt / 233847 over the hours;
- the split of Qupot into 16 compass sectors of 22.5°;
- the choice between the snowfall-controlled and the wind-controlled regime, and the realised transport Qt = Qinf·(1 − 0.14^(F/T));
- the aggregation of an hourly series into hydrological seasons that run from July to June:
  - the per-season results, labelled "s-(s+1)";
  - the element-wise mean of the per-season sector vectors.

**The helpers of the price-area map (`pages/Map.py`).** It covers:

- the canonical spelling of an area name, with whitespace removed and letters in upper case;
- the loop that writes a canonical `ElSpotOmr` property into every GeoJSON feature;
- the ordered list of distinct area names;
- the min/max colour scale and the green→yellow→red `#rrggbb` ramp;
- the style that highlights the selected area.

## Layout

- `wrappers.dfy`, module `Wrappers`: `Option` and `Result`.
- `text.dfy`, module `Text`. It models the parts of Python's string handling that the core relies on:
  - `str.split()` / `"".join`, with Python's whitespace set;
  - ASCII `str.upper()`;
  - `str(int)` for integers;
  - the `02x` hex format, with the read-back of digits.
- `snowdrift.dfy`, module `Snowdrift`.
  - Floats are exact reals.
  - u^3.8 and 0.14^x are function parameters `pow38` and `pow014`. The laws the proofs use are the predicates `IsPowerLaw` (u^3.8 ≥ 0 for u ≥ 0) and `IsDecay` (0 < 0.14^x ≤ 1 for x ≥ 0).
  - `compute_sector_transport` fills a 16-slot array in place (`SectorTransport`).
  - `compute_yearly_results` and `compute_average_sector` append while looping over the seasons (`YearlyResults`, `AverageSector`).
  - Each of these methods is proved equal to a recursive specification function. The properties are proved about that function.
- `map.dfy`, module `Map`.
  - GeoJSON property maps are insertion-ordered sequences of key/value pairs, because the loader takes the *first* matching key.
  - `LoadFeatures` updates an `array<Feature>` in place.

## Model

| member | source | states |
|---|---|---|
| `Snowdrift.Qupot` | pages/Snowdrift.py:12-14 | the transport potential of an empty series is 0 |
| `Snowdrift.QupotAppend` | pages/Snowdrift.py:12-14 | Qupot is additive over the concatenation of two hourly series |
| `Snowdrift.QupotNonNegative` | pages/Snowdrift.py:12-14 | with non-negative speeds and dt, and u^3.8 ≥ 0, Qupot ≥ 0 |
| `Snowdrift.SectorIndex` | pages/Snowdrift.py:16-17 | every direction, negative or above 360 included, falls in one of the sectors 0..15 |
| `Snowdrift.Mod360` | pages/Snowdrift.py:17 | Python's float `% 360` lies in [0, 360) |
| `Snowdrift.Mod360Of` | pages/Snowdrift.py:17 | for x in [360k, 360(k+1)), `x % 360` is x − 360k |
| `Snowdrift.SectorPeriodic` | pages/Snowdrift.py:16-17 | adding any whole number of turns (±360°) leaves the sector unchanged |
| `Snowdrift.SectorArc` | pages/Snowdrift.py:16-17 | for d in [0, 360), the sector is k exactly when d lies in [22.5k − 11.25, 22.5k + 11.25) modulo 360; sector 0 is [348.75, 360) ∪ [0, 11.25) |
| `Snowdrift.SectorOfBearing` | pages/Snowdrift.py:75-77 | the bearing 22.5k of the k-th of the 16 compass labels falls in sector k |
| `Snowdrift.SectorSums` | pages/Snowdrift.py:19-24 | the sector vector always has exactly 16 entries |
| `Snowdrift.SectorSumsStep` | pages/Snowdrift.py:21-23 | one more hour adds its term u^3.8·dt/233847 to the slot `sector_index(d)` and leaves the other 15 slots unchanged |
| `Snowdrift.SectorSumsSlot` | pages/Snowdrift.py:19-24 | slot k is the total of the terms of exactly those hours whose direction falls in sector k |
| `Snowdrift.SectorSumsTotal` | pages/Snowdrift.py:12-24 | the 16 sector values add up to Qupot of the same speeds |
| `Snowdrift.SectorSumsNonNegative` | pages/Snowdrift.py:19-24 | non-negative speeds give non-negative sector values |
| `Snowdrift.SectorTransport` | pages/Snowdrift.py:19-24 | the in-place loop over the zipped speeds and directions yields the sector sums of the first min(#speeds, #directions) hours |
| `Snowdrift.SnowTransport` | pages/Snowdrift.py:26-37 | T = 0 fails with a division by zero. Otherwise it gives: Qupot of the speeds; Qspot = 0.5·T·Swe; Srwe = θ·Swe; "Snowfall controlled" exactly when Qupot > Qspot (strict), and then Qinf = θ·Qspot; else "Wind controlled" with Qinf = Qupot; Qt = Qinf·(1 − 0.14^(F/T)) |
| `Snowdrift.QtBounds` | pages/Snowdrift.py:36 | with T > 0 and F ≥ 0 the computation succeeds, and 0 ≤ Qt ≤ Qinf whenever Qinf ≥ 0 |
| `Snowdrift.QinfNonNegative` | pages/Snowdrift.py:27-35 | non-negative speeds, θ and Swe give Qinf ≥ 0 |
| `Snowdrift.QinfAtMostPotential` | pages/Snowdrift.py:30-35 | with 0 ≤ θ ≤ 1 and Swe ≥ 0, the controlling transport never exceeds the potential: Qinf ≤ Qupot |
| `Snowdrift.Season` | pages/Snowdrift.py:119 | the season of a valid timestamp is the year s with 1 July of s 00:00:00 not after it and 1 July of s+1 after it |
| `Snowdrift.InSeasonWindow` | pages/Snowdrift.py:44-47 | a timestamp in the window of season s lies in July to December of s or in January to June of s+1 |
| `Snowdrift.SeasonWindow` | pages/Snowdrift.py:44-47 | a calendar-valid timestamp lies in the window [1 July s 00:00:00, 30 June s+1 23:59:59] exactly when its season (line 119) is s |
| `Snowdrift.HourlySwe` | pages/Snowdrift.py:50-52 | an hour colder than 1 °C contributes exactly its precipitation, and any other hour contributes nothing. With non-negative precipitation the contribution lies between 0 and the precipitation |
| `Snowdrift.TotalSwe` | pages/Snowdrift.py:50-53 | only hours colder than 1 °C contribute precipitation: the total is 0 when every hour is at or above 1 °C, and ≥ 0 for non-negative precipitation |
| `Snowdrift.TotalSweSingle` | pages/Snowdrift.py:50-53 | the total over a single hour is that hour's contribution |
| `Snowdrift.TotalSweAppend` | pages/Snowdrift.py:50-53 | the total over two consecutive stretches of hours is the sum of their totals, so with `TotalSweSingle` the total is the sum of the hours' contributions |
| `Snowdrift.InsertSorted` | pages/Snowdrift.py:40 | inserting into a strictly increasing list of seasons keeps it strictly increasing and adds exactly the new season |
| `Snowdrift.SortedSeasons` | pages/Snowdrift.py:40 | `sorted(unique(season))`: strictly increasing, and it holds exactly the seasons of the rows |
| `Snowdrift.WindowRows` | pages/Snowdrift.py:47 | the mask keeps exactly the rows of the series inside the window: every kept row is a row in the window, every row in the window is kept, and each row occurs as often in the result as in the series if it is in the window, and not at all otherwise |
| `Snowdrift.GroupRows` | pages/Snowdrift.py:62 | the group of a season holds exactly the rows with that season: every grouped row has season s, every row with season s is in the group, and each row occurs in the group as often as in the series if its season is s, and not at all otherwise |
| `Snowdrift.WindowIsGroup` | pages/Snowdrift.py:44-47 | on valid timestamps, the window filter of compute_yearly_results selects the same rows, in the same order, as the season grouping of compute_average_sector |
| `Snowdrift.GroupOfOwnSeason` | pages/Snowdrift.py:62 | every row's season has a non-empty group |
| `Snowdrift.SeasonLabel` | pages/Snowdrift.py:56 | the label is the decimal form of s, a "-", and the decimal form of s+1 (the decimal forms as `Text.Decimal` specifies them). For s ≥ 0 the text before the dash reads back as s and the text after it as s+1 |
| `Snowdrift.SeasonLabelInjective` | pages/Snowdrift.py:56 | distinct non-negative seasons get distinct labels "s-(s+1)" |
| `Snowdrift.NextResults` | pages/Snowdrift.py:43-57 | one season keeps a failure as it is; on success it appends at most one row and leaves the earlier rows unchanged |
| `Snowdrift.ResultsFor` | pages/Snowdrift.py:42-57 | processing a list of seasons yields at most one row per season |
| `Snowdrift.ResultsForFailureStays` | pages/Snowdrift.py:42-57 | once a season raises, the rest of the seasons are never reached: the outcome is that failure |
| `Snowdrift.SeasonStep` | pages/Snowdrift.py:43-57 | one pass of the loop body: a season with an empty window adds nothing; otherwise the transport's error is returned, or the row (label, transport of the window's total Swe and wind speeds) is appended |
| `Snowdrift.YearlyResults` | pages/Snowdrift.py:39-58 | the loop over the sorted seasons computes the season-by-season specification, stopping at the first failure |
| `Snowdrift.ResultsForAllSeasons` | pages/Snowdrift.py:42-57 | for T ≠ 0 and seasons with non-empty windows, there is one result per season, in order, each holding the season's label and its snow transport |
| `Snowdrift.YearlyResultsComplete` | pages/Snowdrift.py:39-58 | for T ≠ 0 and valid timestamps, there is exactly one result per season present, in ascending season order. Each result holds the label "s-(s+1)" and the transport of that season's total Swe and wind speeds |
| `Snowdrift.YearlyResultsZeroT` | pages/Snowdrift.py:36 | with T = 0 and at least one row, the yearly computation fails |
| `Snowdrift.SeasonSectors` | pages/Snowdrift.py:61-70 | one 16-entry sector vector per season |
| `Snowdrift.ColumnTotals` | pages/Snowdrift.py:71 | the column totals form a 16-vector whose slot k is the sum of slot k over all the vectors |
| `Snowdrift.ColumnMean` | pages/Snowdrift.py:71 | `np.mean(axis=0)` gives a 16-vector whose slot k is the sum of slot k over all the vectors, divided by the number of vectors |
| `Snowdrift.AverageSector` | pages/Snowdrift.py:60-72 | the loop over the season groups yields None when there are no seasons (mean of nothing); otherwise it yields the element-wise mean of the seasons' sector vectors |
| `Snowdrift.ColumnTotalsSum` | pages/Snowdrift.py:71 | the column totals add up to the sum of all entries |
| `Snowdrift.ColumnMeanSum` | pages/Snowdrift.py:71 | the element-wise mean adds up to the grand total divided by the number of vectors |
| `Snowdrift.GrandTotalOfSeasons` | pages/Snowdrift.py:60-72 | all the sector values of all seasons add up to the seasons' total Qupot |
| `Snowdrift.AverageSectorTotal` | pages/Snowdrift.py:60-72 | the 16 averaged sector values add up to the mean seasonal Qupot |
| `Snowdrift.ColumnMeanNonNegative` | pages/Snowdrift.py:71 | non-negative sector vectors have a non-negative mean |
| `Text.Upper` | pages/Map.py:27 | `upper()` keeps the length, maps every character through the upper-case map, and leaves no lower-case letter |
| `Text.UpperChar` | pages/Map.py:27 | upper-casing a character leaves no lower-case letter, changes only lower-case letters, and keeps whitespace as whitespace |
| `Text.UpperOfUpper` | pages/Map.py:27 | upper-case text is unchanged by `upper()` |
| `Text.StripSpaces` | pages/Map.py:27 | removing the whitespace leaves no whitespace and only characters of the input; upper-case input stays upper-case |
| `Text.StripSpacesAppend` | pages/Map.py:27 | removing whitespace distributes over concatenation |
| `Text.StripSpacesOfNoSpace` | pages/Map.py:27 | text without whitespace is unchanged |
| `Text.LeadingWord` | pages/Map.py:27 | the first word is a whitespace-free prefix that stops at whitespace |
| `Text.Split` | pages/Map.py:27 | `split()` yields non-empty words without whitespace |
| `Text.Join` | pages/Map.py:27 | `"".join` of words without whitespace has no whitespace |
| `Text.JoinSplit` | pages/Map.py:27 | `"".join(s.split())` equals s with every whitespace character removed |
| `Text.DigitValue` | pages/Map.py:194 | reading a character as a digit inverts the digit alphabet |
| `Text.ToBase` | pages/Map.py:194 | a natural number is written with at least one digit of the base and no leading zero |
| `Text.FromToBase` | pages/Map.py:194 | reading back the digits of n gives n |
| `Text.Decimal` | pages/Snowdrift.py:56 | `str(i)` of a non-negative int is decimal digits without a leading zero that read back as i; of a negative int, a "-" followed by such digits of -i |
| `Text.DecimalInjective` | pages/Snowdrift.py:56 | distinct naturals have distinct decimal strings |
| `Text.Hex02` | pages/Map.py:194 | `format(n, '02x')` has at least two characters. For n ≥ 0 they are lower-case hex digits that read back as n, exactly two when n < 256. For n < 0 they are a "-" followed by the hex digits of -n |
| `Map.Truthy` | pages/Map.py:47 | the falsy values are exactly None, False, 0 and "" |
| `Map.PyStr` | pages/Map.py:27 | `str` of a string is the string itself, of a bool "True" or "False", and of an int its decimal form, which reads back as the int |
| `Map.NormalizeAreaName` | pages/Map.py:24-27 | None gives None; any other value gives `str(v)` upper-cased with all whitespace removed, so the result has neither whitespace nor lower-case letters |
| `Map.NormalizeIdempotent` | pages/Map.py:24-27 | normalising a normalised name changes nothing |
| `Map.NormalizeExamples` | pages/Map.py:22 | "NO 2" and "no2" both become "NO2" |
| `Map.SpacedName` | pages/Map.py:27 | "NO 2" is already upper-case, and removing its whitespace gives "NO2" |
| `Map.LowerName` | pages/Map.py:27 | "no2" upper-cases to "NO2", which has no whitespace to remove |
| `Map.Keys` | pages/Map.py:41 | the keys of a property map, in insertion order |
| `Map.Get` | pages/Map.py:47 | `get` of a missing key is None |
| `Map.GetPresent` | pages/Map.py:47 | with distinct keys, `get` of a key that is present gives the value stored under it |
| `Map.Put` | pages/Map.py:48 | `props[k] = v` adds at most one entry |
| `Map.PutGet` | pages/Map.py:48 | after `props[k] = v` the value under k is v |
| `Map.PutOthers` | pages/Map.py:48 | after `props[k] = v` every other key keeps its value |
| `Map.PutKeys` | pages/Map.py:48 | after `props[k] = v` the key order is unchanged when k was present, and k is appended otherwise |
| `Map.PutUnique` | pages/Map.py:48 | `props[k] = v` keeps distinct keys distinct |
| `Map.PutSpec` | pages/Map.py:48 | the assignment in one statement: k is present with value v, every other key keeps its value, the key order is kept or k appended, and distinct keys stay distinct |
| `Map.Contains` | pages/Map.py:42 | `sub in s` needs sub to be no longer than s, and holds when s starts with sub |
| `Map.KeyMatches` | pages/Map.py:42 | a key is searched exactly when its upper-case form contains "ELSPOT", "EL_SPOT" or "OMR": the "ELSPOTOMR" test never adds a key |
| `Map.CanonicalKeyMatches` | pages/Map.py:42 | the key "ElSpotOmr" itself is one of the keys the loader searches |
| `Map.FirstMatch` | pages/Map.py:40-44 | the candidate the key search finds is None or one of the property values |
| `Map.FirstMatchAt` | pages/Map.py:40-44 | when key j is the first whose upper-case form contains "ELSPOT", "EL_SPOT", "ELSPOTOMR" or "OMR", the candidate is its value |
| `Map.FirstMatchNone` | pages/Map.py:40-44 | with no such key the search leaves the candidate at None |
| `Map.FindCandidate` | pages/Map.py:40-44 | the loop stops at the first matching key and returns its value, or None if no key matches |
| `Map.Or` | pages/Map.py:47 | `a or b` is one of its operands; it is truthy exactly when a or b is, and it is a when a is truthy |
| `Map.Candidate` | pages/Map.py:40-47 | the candidate name is None or one of the property values |
| `Map.CanonicalValue` | pages/Map.py:44-48 | the stored value is None, or a string with neither whitespace nor lower-case letters |
| `Map.CanonicalProperties` | pages/Map.py:38-48 | the loop body stores the canonical value under "ElSpotOmr" |
| `Map.Canonicalise` | pages/Map.py:38 | after `setdefault` every feature has a properties map |
| `Map.CanonicaliseShape` | pages/Map.py:37-48 | after the loop body, "ElSpotOmr" is present with the canonical value. Every other key keeps its value and its place, and no key is duplicated |
| `Map.CanonicalFromFirstMatch` | pages/Map.py:40-48 | the stored name is the normalised value of the first key naming an area, when that value is not None |
| `Map.CanonicalFromFallback` | pages/Map.py:45-48 | when the key search leaves the candidate None, the name comes from `ElSpotOmr or pricearea or price_area`. This happens when no key names an area, and also when the first such key holds None |
| `Map.NullMatchFallsBack` | pages/Map.py:41-48 | `{"ElSpotOmr": None, "price_area": "no2"}` is named "NO2": the matching key's None does not stop the fallback chain |
| `Map.NotContains` | pages/Map.py:42 | a string lacking one character of a pattern does not contain the pattern |
| `Map.NoAreaKey` | pages/Map.py:42 | a key with neither 'L' nor 'O' after upper-casing is not searched |
| `Map.BlankPriceAreaYieldsEmptyName` | pages/Map.py:47-48 | `or` returns its last operand even when it is falsy: an empty `price_area` is stored as "", not None. A blank one gives "" as well |
| `Map.MapSeqAt` | pages/Map.py:37 | applying a function to each element of a list puts f(s[i]) at position i |
| `Map.CanonicaliseAll` | pages/Map.py:37-48 | the loop keeps the number of features and canonicalises each feature on its own |
| `Map.LoadFeatures` | pages/Map.py:37-48 | the in-place loop over the feature array leaves exactly the canonicalised features |
| `Map.FirstIndex` | pages/Map.py:59 | the first occurrence of an element |
| `Map.FirstIndexInPrefix` | pages/Map.py:59 | an element's first occurrence in a prefix is its first occurrence in the whole |
| `Map.Dedupe` | pages/Map.py:59 | `list(dict.fromkeys(s))` has no duplicates, holds exactly the elements of s, and keeps them in order of first occurrence |
| `Map.AreaValues` | pages/Map.py:58 | the comprehension collects only truthy values |
| `Map.AreaValuesComplete` | pages/Map.py:58 | every feature whose ElSpotOmr is truthy has that value collected |
| `Map.AreaValuesSound` | pages/Map.py:58 | every collected value is the ElSpotOmr value of some feature |
| `Map.PriceAreas` | pages/Map.py:58-59 | the area list has no duplicates and holds the same values as the comprehension |
| `Map.PriceAreasExact` | pages/Map.py:58-59 | the area list has no duplicates, holds every truthy ElSpotOmr value of the features, and holds only truthy ElSpotOmr values of some feature |
| `Map.AreaValuesAreCanonical` | pages/Map.py:37-58 | after loading, every collected area is a non-empty canonical name |
| `Map.PriceAreasAreCanonical` | pages/Map.py:37-59 | after loading, every entry of the area list is a non-empty string with neither whitespace nor lower-case letters |
| `Map.MinOf` | pages/Map.py:173 | `min` is an element at or below all the others |
| `Map.MaxOf` | pages/Map.py:173 | `max` is an element at or above all the others |
| `Map.ColorRange` | pages/Map.py:172-176 | vmax − vmin ≥ 1e-9 always. No means gives (0, 1). Otherwise vmin is the least mean, and vmax is the greatest mean unless the spread is below 1e-9, in which case it is vmin + 1. Every mean lies in [vmin, vmax] |
| `Map.Trunc` | pages/Map.py:186-192 | `int(x)` truncates toward zero: for x ≥ 0 the largest integer not above x, for x < 0 the smallest integer not below x |
| `Map.Norm` | pages/Map.py:180 | the position times the width of the scale is the distance from vmin |
| `Map.Ramp` | pages/Map.py:183-193 | one of red and green is always 255. On [0, 0.5] red is 510·norm truncated, and on (0.5, 1] green is 510·(1 − norm) truncated. Red lies in 0..255 for a position ≥ 0, and green for a position ≤ 1. A position 1/510 or more before the start gives a negative red |
| `Map.GetColor` | pages/Map.py:178-194 | the result is "#", at least six more characters, and "00" for blue. A position 1/510 or more before the start puts a "-" right after the "#" |
| `Map.NormInRange` | pages/Map.py:180 | a value in [vmin, vmax] has its normalised position in [0, 1] |
| `Map.RampBounds` | pages/Map.py:183-193 | on [0, 1], r and g lie in 0..255. For norm ≤ 0.5, g = 255; otherwise r = 255 |
| `Map.RampMonotone` | pages/Map.py:183-193 | along the ramp, r never decreases and g never increases |
| `Map.ColorMonotone` | pages/Map.py:178-194 | a larger in-range value is at least as red and at most as green |
| `Map.ColorFormat` | pages/Map.py:178-194 | an in-range value gets "#" and six lower-case hex digits ending in "00"; the first and middle pairs read back as r and g |
| `Map.HexEndpoints` | pages/Map.py:194 | 0 and 255 format as "00" and "ff" |
| `Map.NormEndpoints` | pages/Map.py:180 | vmin, vmax and their midpoint sit at 0, 1 and 0.5 |
| `Map.ColorEndpoints` | pages/Map.py:178-194 | on any scale, vmin is "#00ff00", vmax is "#ff0000" and their midpoint is "#ffff00" |
| `Map.SpreadMeansColors` | pages/Map.py:172-194 | when the means spread at least 1e-9, the lowest mean is "#00ff00" and the highest "#ff0000" |
| `Map.FlatMeansGreen` | pages/Map.py:172-194 | when the means spread less than 1e-9, the scale is widened to 1 and every mean, the highest included, is "#00ff00" |
| `Map.ColorBelowScaleMalformed` | pages/Map.py:178-194 | get_color as written maps a value below the scale to a string with a minus sign: scale (10, 20) and value 0 give "#-1feff00" |
| `Map.ColorAboveScaleMalformed` | pages/Map.py:178-194 | get_color as written maps a value above the scale to a string with a minus sign: scale (−20, −10) and value 0 give "#ff-1fe00" |
| `Map.ClampUnit` | pages/Map.py:179 | the clamped position lies in [0, 1] and equals the position when that is already in [0, 1] |
| `Map.ClampedColor` | pages/Map.py:178-194 | with the position clamped, a value at or below the scale is "#00ff00" and a value at or above it "#ff0000" |
| `Map.ClampedColorWellFormed` | pages/Map.py:178-194 | with the position clamped, every value gets "#" and six hex digits ending in "00" |
| `Map.ClampedColorInRange` | pages/Map.py:178-194 | on the scale the clamped colour is get_color's colour |
| `Map.MeanOf` | pages/Map.py:203 | `means.get(area, 0.0)`: the area's mean, or 0.0 for an area without one |
| `Map.IsSelected` | pages/Map.py:204 | only a non-null selection can highlight a feature, and only a feature with an area name |
| `Map.StyleFor` | pages/Map.py:201-216 | red outline, weight 3 and opacity 0.6 exactly when `selected_area` is truthy and normalises to the same name as the feature's ElSpotOmr; otherwise black, weight 1 and opacity 0.4. The fill is get_color of `means.get(area, 0.0)`, unclamped as in the source |
| `Map.StyleForClamped` | pages/Map.py:178-216 | the corrected style: the outline of style_function, and a fill that is always "#" and six more characters. It equals style_function's style whenever the area's mean lies on the scale |
| `Map.MissingAreaFillMalformed` | pages/Map.py:203 | as written, with means {NO1: 10, NO2: 20}, a feature without an area is filled with "#-1feff00" |
| `Map.MissingAreaFillClamped` | pages/Map.py:203 | with the position clamped, the same feature is filled "#00ff00" |
| `Map.KnownAreaFill` | pages/Map.py:172-216 | with the scale built from the means, a feature whose area has a mean gets the same style from the corrected and the as-written style function |
| `Map.NullAreaNeverSelected` | pages/Map.py:204 | a feature without an area name is never highlighted |
| `Map.SelectionIgnoresSpacing` | pages/Map.py:204 | a non-empty selection whose upper-cased, whitespace-free form equals the area's highlights it, e.g. "no 2" selects "NO2" |

## Findings

| source | as written | input that shows it | evidently intended | confidence | as-written member | corrected member |
|---|---|---|---|---|---|---|
| pages/Map.py:178-194, 203 | `get_color` assumes the value lies in [vmin, vmax]. `style_function` passes `means.get(area, 0.0)`, and 0.0 is below vmin when every mean is positive. norm then goes negative, r becomes a negative int, and `'02x'` writes it with a minus sign | means {NO1: 10.0, NO2: 20.0} and a feature whose ElSpotOmr is null: r = int(255·(−2)) = −510, fill "#-1feff00" | a colour of the ramp for every value, with the position kept in [0, 1] ("normalize 0..1" in the source) | medium; not executed | `Map.StyleFor`, `Map.MissingAreaFillMalformed`, `Map.ColorBelowScaleMalformed` | `Map.StyleForClamped`, `Map.MissingAreaFillClamped`, `Map.ClampedColorWellFormed` |

The same default lies above the scale when every mean is negative: means {−20, −10} give norm 2, g = int(255·(1 − 3)) = −510 and the fill "#ff-1fe00" (`Map.ColorAboveScaleMalformed`). Negative mean prices make this case less likely. `Map.StyleFor` and `Map.GetColor` model the code as written. `Map.StyleForClamped` uses the clamped colour. `Map.KnownAreaFill` shows that the two styles agree for every area that has a mean.

## Left out

- The Streamlit pages, widgets, session state, reruns and the Folium and Plotly drawing are presentation only, so they are not modelled. `plot_wind_rose` is left out apart from the compass labels and their bearings.
- The Open-Meteo download, the HTTP cache and the MongoDB loaders are I/O. Reading the GeoJSON file is I/O as well: `LoadFeatures` takes the parsed features.
- The point-in-polygon click resolution is not modelled, because it relies on the shapely geometry library.
- `compute_area_means` is pandas indexing, and it is called with four arguments against three parameters. The means are a parameter of `StyleFor` and `ColorRange`.
- The signal and statistics pages (filtering, LOF, DCT, STL, spectrogram) wrap foreign libraries and are not modelled.
- Floating point:
  - every quantity is an exact real, so IEEE rounding is not modelled (for example, a tiny negative direction whose `% 360` rounds up to 360.0);
  - NaN values are not modelled.
  - u^3.8 and 0.14^x are parameters constrained only by the laws the proofs need.
- `Snowdrift.SnowTransport`: Python computes Qupot by dividing the summed terms once. `SectorTransport` divides each hour's term. The two agree over the reals, not necessarily in floating point.
- `Snowdrift.SnowTransport`, `Snowdrift.SectorTransport`: wind speeds are taken as magnitudes. For a negative speed, Python's `u ** 3.8` is a complex number, so the sector slot becomes complex and the comparison `Qupot > Qspot` raises TypeError, which ends `compute_yearly_results`. The model returns `Success` with the real value `pow38(u)` instead. The complex result and the TypeError are not modelled.
- `Snowdrift.TotalSwe`: Swe is summed in row order over the reals. pandas may sum floats in a different order.
- `Snowdrift.AverageSector`: the unused `Swe_hourly` column of `compute_average_sector` is not computed. `np.mean` of an empty list, which is NaN with a warning, is modelled as None.
- `Snowdrift.SeasonWindow`: timestamps are whole seconds. A timestamp in the last second of June 30 with a fractional part would fall outside the window, and that is not modelled.
- `Snowdrift.WindowIsGroup`: the window filter and the season grouping are shown to agree only for calendar-valid timestamps.
- Time zones are not modelled: every timestamp is taken as UTC, as the series is after `pd.to_datetime(..., utc=True)`.
- `Map.Json`: GeoJSON property values are limited to null, booleans, integers and strings. Floats, lists and objects, and their `str()` forms, are not modelled.
- A `properties` member that is present but null is not modelled. The source would fail on it.
- Python treats `True == 1` as dict keys. The model keeps booleans and integers apart.
- `Text.Upper`: `upper()` is modelled on ASCII letters only. Non-ASCII case mappings, including those that change the length, are not modelled.
- Aliasing between features that share one properties dict is not modelled: each feature owns its property map.

=== FILE: map.dfy ===
/**
 * The price-area helpers of the Map page: the canonical spelling of an area
 * name, the canonical `ElSpotOmr` property written into every GeoJSON feature,
 * the ordered list of distinct areas, and the green-yellow-red colour scale
 * with the highlight of the selected area.
 */
module Map {
  import opened Wrappers
  import Text

  /** The JSON scalars a GeoJSON property can hold. */
  datatype Json = JNull | JBool(b: bool) | JInt(i: int) | JStr(s: string)

  /** Python truthiness. */
  predicate Truthy(v: Json)
    ensures Truthy(v) <==> v != JNull && v != JBool(false) && v != JInt(0) && v != JStr("")
  {
    match v
    case JNull => false
    case JBool(b) => b
    case JInt(i) => i != 0
    case JStr(s) => s != ""
  }

  /** `str(v)` for a value other than None. */
  function PyStr(v: Json): (s: string)
    requires !v.JNull?
    ensures v.JStr? ==> s == v.s
    ensures v.JBool? ==> (s == "True" <==> v.b) && (s == "False" <==> !v.b)
    ensures v.JInt? && 0 <= v.i ==> Text.FromBase(s, 10) == v.i
    ensures v.JInt? && v.i < 0 ==> |s| >= 2 && s[0] == '-' && Text.FromBase(s[1..], 10) == -v.i
  {
    match v
    case JBool(b) => if b then "True" else "False"
    case JInt(i) => Text.Decimal(i)
    case JStr(s) => s
  }

  // ---------------------------------------------------------------------------
  // normalize_area_name
  // ---------------------------------------------------------------------------

  /** normalize_area_name: None stays None; otherwise `"".join(str(v).upper().split())`. */
  function NormalizeAreaName(v: Json): (r: Option<string>)
    ensures r.None? <==> v.JNull?
    ensures r.Some? ==> Text.NoSpace(r.value) && Text.NoLower(r.value)
    ensures r.Some? ==> r.value == Text.StripSpaces(Text.Upper(PyStr(v)))
  {
    if v.JNull? then None
    else
      var upper := Text.Upper(PyStr(v));
      Text.JoinSplit(upper);
      Some(Text.Join(Text.Split(upper)))
  }

  /** Normalising a normalised name changes nothing. */
  lemma NormalizeIdempotent(v: Json)
    requires !v.JNull?
    ensures NormalizeAreaName(JStr(NormalizeAreaName(v).value)) == NormalizeAreaName(v)
  {
    var r := NormalizeAreaName(v).value;
    Text.UpperOfUpper(r);
    Text.StripSpacesOfNoSpace(r);
  }

  /** "NO 2" and "no2" both become "NO2". */
  lemma NormalizeExamples()
    ensures NormalizeAreaName(JStr("NO 2")) == Some("NO2")
    ensures NormalizeAreaName(JStr("no2")) == Some("NO2")
  {
    SpacedName();
    LowerName();
  }

  lemma SpacedName()
    ensures Text.Upper("NO 2") == "NO 2" && Text.StripSpaces("NO 2") == "NO2"
  {
    Text.UpperOfUpper("NO 2");
    assert "NO 2"[1..] == "O 2" && "O 2"[1..] == " 2" && " 2"[1..] == "2" && "2"[1..] == "";
    assert Text.StripSpaces("2") == "2";
    assert Text.StripSpaces(" 2") == "2";
    assert Text.StripSpaces("O 2") == "O2";
  }

  lemma LowerName()
    ensures Text.Upper("no2") == "NO2" && Text.StripSpaces("NO2") == "NO2"
  {
    var u := Text.Upper("no2");
    assert u[0] == 'N' && u[1] == 'O' && u[2] == '2';
    Text.StripSpacesOfNoSpace("NO2");
  }

  // ---------------------------------------------------------------------------
  // Property maps (Python dicts keep insertion order)
  // ---------------------------------------------------------------------------

  type PropMap = seq<(string, Json)>

  function Keys(p: PropMap): (ks: seq<string>)
    ensures |ks| == |p| && forall i :: 0 <= i < |p| ==> ks[i] == p[i].0
  {
    if p == [] then [] else [p[0].0] + Keys(p[1..])
  }

  function Values(p: PropMap): (vs: seq<Json>)
    ensures |vs| == |p| && forall i :: 0 <= i < |p| ==> vs[i] == p[i].1
  {
    if p == [] then [] else [p[0].1] + Values(p[1..])
  }

  predicate UniqueKeys(p: PropMap)
  {
    forall i, j :: 0 <= i < j < |p| ==> p[i].0 != p[j].0
  }

  lemma UniqueTail(p: PropMap)
    requires UniqueKeys(p) && p != []
    ensures UniqueKeys(p[1..]) && p[0].0 !in Keys(p[1..])
  {
  }

  lemma PrependUnique(e: (string, Json), r: PropMap)
    requires UniqueKeys(r) && e.0 !in Keys(r)
    ensures UniqueKeys([e] + r)
  {
    var q := [e] + r;
    forall i, j | 0 <= i < j < |q|
      ensures q[i].0 != q[j].0
    {
      assert q[j] == r[j - 1];
      if i == 0 {
        assert Keys(r)[j - 1] == r[j - 1].0;
      } else {
        assert q[i] == r[i - 1];
      }
    }
  }

  /** `p.get(k)`: the value under k, or None. */
  function Get(p: PropMap, k: string): (v: Json)
    ensures k !in Keys(p) ==> v == JNull
    ensures v != JNull ==> v in Values(p)
  {
    if p == [] then JNull
    else if p[0].0 == k then p[0].1
    else Get(p[1..], k)
  }

  /** With distinct keys, `get` of a present key is the value stored under it. */
  lemma {:induction false} GetPresent(p: PropMap, i: int)
    requires UniqueKeys(p) && 0 <= i < |p|
    ensures Get(p, p[i].0) == p[i].1
  {
    if i > 0 {
      UniqueTail(p);
      assert p[1..][i - 1] == p[i];
      GetPresent(p[1..], i - 1);
    }
  }

  /** `p[k] = v`: an existing key keeps its place, a new key goes last. */
  function Put(p: PropMap, k: string, v: Json): (q: PropMap)
    ensures |p| <= |q| <= |p| + 1
  {
    if p == [] then [(k, v)]
    else if p[0].0 == k then [(k, v)] + p[1..]
    else [p[0]] + Put(p[1..], k, v)
  }

  /** After `p[k] = v` the value under k is v. */
  lemma {:induction false} PutGet(p: PropMap, k: string, v: Json)
    ensures Get(Put(p, k, v), k) == v
  {
    if p != [] && p[0].0 != k {
      PutGet(p[1..], k, v);
    }
  }

  /** After `p[k] = v` every other key keeps its value. */
  lemma {:induction false} PutOthers(p: PropMap, k: string, v: Json, k': string)
    requires k' != k
    ensures Get(Put(p, k, v), k') == Get(p, k')
  {
    if p != [] && p[0].0 != k {
      PutOthers(p[1..], k, v, k');
    }
  }

  /** After `p[k] = v` the key order is unchanged, or k is appended. */
  lemma {:induction false} PutKeys(p: PropMap, k: string, v: Json)
    ensures Keys(Put(p, k, v)) == if k in Keys(p) then Keys(p) else Keys(p) + [k]
  {
    var q := Put(p, k, v);
    if p != [] {
      assert Keys(p) == [p[0].0] + Keys(p[1..]);
      if p[0].0 == k {
        assert Keys(q) == [k] + Keys(p[1..]);
      } else {
        PutKeys(p[1..], k, v);
        assert Keys(q) == [p[0].0] + Keys(Put(p[1..], k, v));
      }
    }
  }

  /** `p[k] = v` keeps distinct keys distinct. */
  lemma {:induction false} PutUnique(p: PropMap, k: string, v: Json)
    requires UniqueKeys(p)
    ensures UniqueKeys(Put(p, k, v))
  {
    if p != [] {
      UniqueTail(p);
      var rest := if p[0].0 == k then p[1..] else Put(p[1..], k, v);
      assert Put(p, k, v) == [(k, v)] + rest || Put(p, k, v) == [p[0]] + rest;
      if p[0].0 == k {
        PrependUnique((k, v), p[1..]);
      } else {
        PutUnique(p[1..], k, v);
        PutKeys(p[1..], k, v);
        PrependUnique(p[0], rest);
      }
    }
  }

  /**
   * After `p[k] = v`, k is present with value v and every other key keeps its
   * value; the key order is unchanged, or k is appended; distinct keys stay distinct.
   */
  lemma PutSpec(p: PropMap, k: string, v: Json)
    ensures var q := Put(p, k, v);
            && k in Keys(q) && Get(q, k) == v
            && (forall k' :: k' != k ==> Get(q, k') == Get(p, k'))
            && Keys(q) == (if k in Keys(p) then Keys(p) else Keys(p) + [k])
            && (UniqueKeys(p) ==> UniqueKeys(q))
  {
    var q := Put(p, k, v);
    PutGet(p, k, v);
    PutKeys(p, k, v);
    if k !in Keys(p) {
      assert (Keys(p) + [k])[|p|] == k;
    }
    forall k' | k' != k
      ensures Get(q, k') == Get(p, k')
    {
      PutOthers(p, k, v, k');
    }
    if UniqueKeys(p) {
      PutUnique(p, k, v);
    }
  }

  // ---------------------------------------------------------------------------
  // load_geojson: the canonical ElSpotOmr property
  // ---------------------------------------------------------------------------

  const CanonicalKey: string := "ElSpotOmr"

  /** `sub in s` for strings. */
  predicate Contains(s: string, sub: string)
    ensures Contains(s, sub) ==> |sub| <= |s|
    ensures sub <= s ==> Contains(s, sub)
  {
    assert s[0..] == s;
    exists i :: 0 <= i <= |s| - |sub| && sub <= s[i..]
  }

  /** "ELSPOTOMR" holds both "ELSPOT" and "OMR". */
  lemma LongestPattern(u: string)
    ensures Contains(u, "ELSPOTOMR") ==> Contains(u, "ELSPOT") && Contains(u, "OMR")
  {
    if Contains(u, "ELSPOTOMR") {
      var i :| 0 <= i <= |u| - 9 && "ELSPOTOMR" <= u[i..];
      assert "ELSPOT" <= u[i..];
      assert "OMR" <= u[i + 6..];
    }
  }

  /** A key the loader reads an area name from. */
  predicate KeyMatches(k: string)
    ensures var u := Text.Upper(k);
            KeyMatches(k) <==> Contains(u, "ELSPOT") || Contains(u, "EL_SPOT") || Contains(u, "OMR")
  {
    var u := Text.Upper(k);
    LongestPattern(u);
    Contains(u, "ELSPOT") || Contains(u, "EL_SPOT") || Contains(u, "ELSPOTOMR") || Contains(u, "OMR")
  }

  /** The canonical key itself takes part in the search. */
  lemma CanonicalKeyMatches()
    ensures KeyMatches(CanonicalKey)
  {
    assert Text.Upper(CanonicalKey) == "ELSPOTOMR";
    assert "ELSPOT" <= Text.Upper(CanonicalKey)[0..];
  }

  /** The value under the first matching key, None if no key matches. */
  function FirstMatch(p: PropMap): (v: Json)
    ensures v != JNull ==> v in Values(p)
  {
    if p == [] then JNull
    else if KeyMatches(p[0].0) then p[0].1
    else FirstMatch(p[1..])
  }

  lemma {:induction false} FirstMatchAt(p: PropMap, j: int)
    requires 0 <= j < |p| && KeyMatches(p[j].0)
    requires forall l :: 0 <= l < j ==> !KeyMatches(p[l].0)
    ensures FirstMatch(p) == p[j].1
  {
    if j > 0 {
      FirstMatchAt(p[1..], j - 1);
    }
  }

  lemma {:induction false} FirstMatchNone(p: PropMap)
    requires forall l :: 0 <= l < |p| ==> !KeyMatches(p[l].0)
    ensures FirstMatch(p) == JNull
  {
    if p != [] {
      FirstMatchNone(p[1..]);
    }
  }

  /** Python's `a or b`. */
  function Or(a: Json, b: Json): (r: Json)
    ensures r == a || r == b
    ensures Truthy(r) <==> Truthy(a) || Truthy(b)
    ensures Truthy(a) ==> r == a
  {
    if Truthy(a) then a else b
  }

  /** The candidate name: the first matching key's value, else the fallback chain. */
  function Candidate(p: PropMap): (c: Json)
    ensures c != JNull ==> c in Values(p)
  {
    var c := FirstMatch(p);
    if c.JNull? then Or(Or(Get(p, CanonicalKey), Get(p, "pricearea")), Get(p, "price_area"))
    else c
  }

  /** The value stored under ElSpotOmr. */
  function CanonicalValue(p: PropMap): (v: Json)
    ensures v.JNull? || (v.JStr? && Text.NoSpace(v.s) && Text.NoLower(v.s))
  {
    var c := Candidate(p);
    if c.JNull? then JNull else JStr(NormalizeAreaName(c).value)
  }

  /** A GeoJSON feature, reduced to its optional `properties` object. */
  datatype Feature = Feature(properties: Option<PropMap>)

  /** The feature's properties, with `setdefault("properties", {})` supplying {} (pages/Map.py:38). */
  function PropsOf(f: Feature): PropMap
  {
    if f.properties.None? then [] else f.properties.value
  }

  /** One pass of the loader's loop body over a feature. */
  function Canonicalise(f: Feature): (g: Feature)
    ensures g.properties.Some?
  {
    var p := PropsOf(f);
    Feature(Some(Put(p, CanonicalKey, CanonicalValue(p))))
  }

  /**
   * After the loop body a feature has a properties map holding ElSpotOmr,
   * every other key keeps its value and its place, and no key is repeated.
   */
  lemma CanonicaliseShape(f: Feature)
    ensures var p, q := PropsOf(f), Canonicalise(f).properties.value;
            && CanonicalKey in Keys(q)
            && Get(q, CanonicalKey) == CanonicalValue(p)
            && (forall k :: k != CanonicalKey ==> Get(q, k) == Get(p, k))
            && Keys(q) == (if CanonicalKey in Keys(p) then Keys(p) else Keys(p) + [CanonicalKey])
            && (UniqueKeys(p) ==> UniqueKeys(q))
  {
    var p := PropsOf(f);
    PutSpec(p, CanonicalKey, CanonicalValue(p));
  }

  /**
   * The value under ElSpotOmr is the normalised value of the first key that
   * names an area, when that value is not None.
   */
  lemma CanonicalFromFirstMatch(p: PropMap, j: int)
    requires 0 <= j < |p| && KeyMatches(p[j].0) && !p[j].1.JNull?
    requires forall l :: 0 <= l < j ==> !KeyMatches(p[l].0)
    ensures CanonicalValue(p) == JStr(NormalizeAreaName(p[j].1).value)
  {
    FirstMatchAt(p, j);
  }

  /**
   * Without a matching key the name comes from the fallback chain
   * `ElSpotOmr or pricearea or price_area`, whose last operand is taken
   * even when it is falsy.
   */
  lemma CanonicalFromFallback(p: PropMap)
    requires FirstMatch(p).JNull?
    ensures var c := Or(Or(Get(p, CanonicalKey), Get(p, "pricearea")), Get(p, "price_area"));
            CanonicalValue(p) == if c.JNull? then JNull else JStr(NormalizeAreaName(c).value)
  {
  }

  /**
   * A matching key whose value is None does not stop the fallback chain:
   * the candidate stays None, so `price_area` supplies the name.
   */
  lemma NullMatchFallsBack()
    ensures CanonicalValue([(CanonicalKey, JNull), ("price_area", JStr("no2"))]) == JStr("NO2")
  {
    var p := [(CanonicalKey, JNull), ("price_area", JStr("no2"))];
    assert FirstMatch(p) == JNull by {
      CanonicalKeyMatches();
    }
    assert Get(p, "price_area") == JStr("no2");
    CanonicalFromFallback(p);
    NormalizeExamples();
  }

  /** A string lacking one of the characters of `sub` does not contain `sub`. */
  lemma NotContains(s: string, sub: string, j: int)
    requires 0 <= j < |sub| && sub[j] !in s
    ensures !Contains(s, sub)
  {
  }

  /** A key that has no 'L' and no 'O' after upper-casing does not name an area. */
  lemma NoAreaKey(k: string)
    requires 'L' !in Text.Upper(k) && 'O' !in Text.Upper(k)
    ensures !KeyMatches(k)
  {
    var u := Text.Upper(k);
    NotContains(u, "ELSPOT", 1);
    NotContains(u, "EL_SPOT", 1);
    NotContains(u, "ELSPOTOMR", 1);
    NotContains(u, "OMR", 0);
  }

  /**
   * `or` returns its last operand even when it is falsy: an empty
   * `price_area` is stored as "", not None, and so is a blank one.
   */
  lemma BlankPriceAreaYieldsEmptyName()
    ensures CanonicalValue([("price_area", JStr(""))]) == JStr("")
    ensures CanonicalValue([("price_area", JStr(" "))]) == JStr("")
  {
    PriceAreaOnly(JStr(""));
    PriceAreaOnly(JStr(" "));
    assert Text.StripSpaces(" ") == "";
  }

  /** With `price_area` as the only key, the fallback chain ends at its value. */
  lemma PriceAreaOnly(v: Json)
    ensures Candidate([("price_area", v)]) == v
  {
    assert Text.Upper("price_area") == "PRICE_AREA";
    NoAreaKey("price_area");
    var p := [("price_area", v)];
    FirstMatchNone(p);
    assert Get(p, "price_area") == v;
  }

  function MapSeq<A, B>(f: A -> B, s: seq<A>): (r: seq<B>)
    ensures |r| == |s|
  {
    if s == [] then [] else MapSeq(f, s[..|s| - 1]) + [f(s[|s| - 1])]
  }

  lemma {:induction false} MapSeqAt<A, B>(f: A -> B, s: seq<A>, i: int)
    requires 0 <= i < |s|
    ensures MapSeq(f, s)[i] == f(s[i])
  {
    var n := |s| - 1;
    if i < n {
      MapSeqAt(f, s[..n], i);
      assert s[..n][i] == s[i];
    }
  }

  /** load_geojson's loop over all features: each is canonicalised on its own, and none is added or dropped. */
  function CanonicaliseAll(fs: seq<Feature>): (gs: seq<Feature>)
    ensures |gs| == |fs|
    ensures forall i :: 0 <= i < |fs| ==> gs[i] == Canonicalise(fs[i])
  {
    forall i | 0 <= i < |fs|
      ensures MapSeq(Canonicalise, fs)[i] == Canonicalise(fs[i])
    {
      MapSeqAt(Canonicalise, fs, i);
    }
    MapSeq(Canonicalise, fs)
  }

  /** The search for the first key naming an area, stopping at the first match. */
  method FindCandidate(props: PropMap) returns (candidate: Json)
    ensures candidate == FirstMatch(props)
    ensures candidate.JNull? || exists j :: 0 <= j < |props| && KeyMatches(props[j].0) && candidate == props[j].1
  {
    candidate := JNull;
    var k := 0;
    while k < |props|
      invariant 0 <= k <= |props|
      invariant candidate == JNull
      invariant FirstMatch(props) == FirstMatch(props[k..])
    {
      if KeyMatches(props[k].0) {
        candidate := props[k].1;
        assert candidate == FirstMatch(props[k..]);
        return;
      }
      assert props[k..][1..] == props[k + 1..];
      k := k + 1;
    }
  }

  /** The loop body of load_geojson on one properties map. */
  method CanonicalProperties(props: PropMap) returns (q: PropMap)
    ensures q == Put(props, CanonicalKey, CanonicalValue(props))
  {
    var candidate := FindCandidate(props);
    if candidate.JNull? {
      candidate := Or(Or(Get(props, CanonicalKey), Get(props, "pricearea")), Get(props, "price_area"));
    }
    var value := if candidate.JNull? then JNull else JStr(NormalizeAreaName(candidate).value);
    q := Put(props, CanonicalKey, value);
  }

  /**
   * The loop of load_geojson: every feature gets a properties map (setdefault)
   * and its canonical ElSpotOmr value, in place.
   */
  method LoadFeatures(features: array<Feature>)
    modifies features
    ensures features[..] == CanonicaliseAll(old(features[..]))
  {
    ghost var original := features[..];
    for i := 0 to features.Length
      invariant features[..i] == MapSeq(Canonicalise, original[..i])
      invariant features[i..] == original[i..]
    {
      var q := CanonicalProperties(PropsOf(features[i]));
      assert features[i] == original[i];
      features[i] := Feature(Some(q));
      assert original[..i + 1][..i] == original[..i];
      assert features[..i + 1] == features[..i] + [features[i]];
    }
    assert original[..features.Length] == original;
  }

  // ---------------------------------------------------------------------------
  // price_areas_geo
  // ---------------------------------------------------------------------------

  predicate NoDuplicates<T(==)>(s: seq<T>)
  {
    forall i, j :: 0 <= i < j < |s| ==> s[i] != s[j]
  }

  /** The position of the first occurrence of x in s. */
  function FirstIndex<T(==)>(s: seq<T>, x: T): (i: nat)
    requires x in s
    ensures i < |s| && s[i] == x && forall j :: 0 <= j < i ==> s[j] != x
  {
    if s[0] == x then 0 else 1 + FirstIndex(s[1..], x)
  }

  lemma {:induction false} FirstIndexInPrefix<T>(s: seq<T>, n: nat, x: T)
    requires n <= |s| && x in s[..n]
    ensures FirstIndex(s, x) == FirstIndex(s[..n], x)
  {
    var i := FirstIndex(s[..n], x);
    assert s[i] == x;
  }

  /** `list(dict.fromkeys(s))`: the distinct elements of s in order of first occurrence. */
  function Dedupe<T(==,!new)>(s: seq<T>): (r: seq<T>)
    ensures NoDuplicates(r)
    ensures forall x :: x in r <==> x in s
    ensures forall i, j :: 0 <= i < j < |r| ==> FirstIndex(s, r[i]) < FirstIndex(s, r[j])
  {
    if s == [] then []
    else
      var n := |s| - 1;
      var prev := Dedupe(s[..n]);
      assert forall x :: x in s <==> x in s[..n] || x == s[n] by {
        assert s == s[..n] + [s[n]];
      }
      forall x | x in prev
        ensures FirstIndex(s, x) == FirstIndex(s[..n], x)
      {
        FirstIndexInPrefix(s, n, x);
      }
      if s[n] in prev then prev
      else
        assert FirstIndex(s, s[n]) == n;
        prev + [s[n]]
  }

  /** The truthy ElSpotOmr values of the features, in feature order. */
  function AreaValues(features: seq<Feature>): (vs: seq<Json>)
    ensures forall v :: v in vs ==> Truthy(v)
  {
    if features == [] then []
    else
      var n := |features| - 1;
      var v := AreaOf(features[n]);
      AreaValues(features[..n]) + (if Truthy(v) then [v] else [])
  }

  /** `feat["properties"].get("ElSpotOmr")` */
  function AreaOf(f: Feature): Json
  {
    Get(PropsOf(f), CanonicalKey)
  }

  lemma AreaValuesSnoc(pre: seq<Feature>, f: Feature)
    ensures AreaValues(pre + [f]) == AreaValues(pre) + (if Truthy(AreaOf(f)) then [AreaOf(f)] else [])
  {
    assert (pre + [f])[..|pre|] == pre;
  }

  /** The comprehension collects every truthy ElSpotOmr value. */
  lemma {:induction false} AreaValuesComplete(features: seq<Feature>)
    ensures forall i :: 0 <= i < |features| && Truthy(AreaOf(features[i])) ==> AreaOf(features[i]) in AreaValues(features)
  {
    if features != [] {
      var n := |features| - 1;
      var pre, f := features[..n], features[n];
      assert features == pre + [f];
      AreaValuesComplete(pre);
      AreaValuesSnoc(pre, f);
      forall i | 0 <= i < |features| && Truthy(AreaOf(features[i]))
        ensures AreaOf(features[i]) in AreaValues(features)
      {
        if i < n {
          assert features[i] == pre[i];
          assert AreaOf(pre[i]) in AreaValues(pre);
        }
      }
    }
  }

  /** The comprehension collects only ElSpotOmr values of the features. */
  lemma {:induction false} AreaValuesSound(features: seq<Feature>)
    ensures forall v :: v in AreaValues(features) ==> exists i :: 0 <= i < |features| && AreaOf(features[i]) == v
  {
    if features != [] {
      var n := |features| - 1;
      var pre, f := features[..n], features[n];
      assert features == pre + [f];
      AreaValuesSound(pre);
      AreaValuesSnoc(pre, f);
      forall v | v in AreaValues(features)
        ensures exists i :: 0 <= i < |features| && AreaOf(features[i]) == v
      {
        if v in AreaValues(pre) {
          var i :| 0 <= i < |pre| && AreaOf(pre[i]) == v;
          assert features[i] == pre[i];
        } else {
          assert AreaOf(features[n]) == v;
        }
      }
    }
  }

  /** price_areas_geo */
  function PriceAreas(features: seq<Feature>): (areas: seq<Json>)
    ensures NoDuplicates(areas)
    ensures forall v :: v in areas <==> v in AreaValues(features)
  {
    Dedupe(AreaValues(features))
  }

  /** The area list holds every truthy ElSpotOmr value once, and nothing that is not one. */
  lemma PriceAreasExact(features: seq<Feature>)
    ensures NoDuplicates(PriceAreas(features))
    ensures forall i :: 0 <= i < |features| && Truthy(AreaOf(features[i])) ==> AreaOf(features[i]) in PriceAreas(features)
    ensures forall v :: v in PriceAreas(features) ==>
              Truthy(v) && exists i :: 0 <= i < |features| && AreaOf(features[i]) == v
  {
    AreaValuesComplete(features);
    AreaValuesSound(features);
  }

  /** Each entry of the loaded area list is a non-empty canonical name. */
  predicate IsCanonicalArea(v: Json)
  {
    v.JStr? && v.s != "" && Text.NoSpace(v.s) && Text.NoLower(v.s)
  }

  lemma {:induction false} AreaValuesAreCanonical(features: seq<Feature>)
    ensures forall v :: v in AreaValues(CanonicaliseAll(features)) ==> IsCanonicalArea(v)
  {
    if features != [] {
      var n := |features| - 1;
      var loaded := CanonicaliseAll(features);
      AreaValuesAreCanonical(features[..n]);
      assert loaded[..n] == CanonicaliseAll(features[..n]);
      assert loaded[n] == Canonicalise(features[n]);
      var v := Get(PropsOf(loaded[n]), CanonicalKey);
      PutSpec(PropsOf(features[n]), CanonicalKey, CanonicalValue(PropsOf(features[n])));
      assert v == CanonicalValue(PropsOf(features[n]));
    }
  }

  /** After loading, each entry of the area list is a non-empty canonical name. */
  lemma PriceAreasAreCanonical(features: seq<Feature>)
    ensures forall v :: v in PriceAreas(CanonicaliseAll(features)) ==> IsCanonicalArea(v)
  {
    AreaValuesAreCanonical(features);
  }

  // ---------------------------------------------------------------------------
  // Colour scale
  // ---------------------------------------------------------------------------

  /** The smallest range the scale accepts before widening it to 1. */
  const MinRange: real := 0.000000001

  datatype ColorScale = ColorScale(vmin: real, vmax: real)

  function MinOf(s: seq<real>): (m: real)
    requires s != []
    ensures m in s && forall i :: 0 <= i < |s| ==> m <= s[i]
  {
    if |s| == 1 then s[0]
    else
      var m := MinOf(s[1..]);
      if m < s[0] then m else s[0]
  }

  function MaxOf(s: seq<real>): (m: real)
    requires s != []
    ensures m in s && forall i :: 0 <= i < |s| ==> s[i] <= m
  {
    if |s| == 1 then s[0]
    else
      var m := MaxOf(s[1..]);
      if m > s[0] then m else s[0]
  }

  /** The scale of the mean values: their minimum and maximum, widened when almost flat. */
  function ColorRange(means: seq<real>): (c: ColorScale)
    ensures c.vmax - c.vmin >= MinRange
    ensures means == [] ==> c == ColorScale(0.0, 1.0)
    ensures means != [] ==> c.vmin == MinOf(means)
    ensures means != [] ==> c.vmax == (if MaxOf(means) - MinOf(means) < MinRange then MinOf(means) + 1.0 else MaxOf(means))
    ensures forall i :: 0 <= i < |means| ==> c.vmin <= means[i] <= c.vmax
  {
    var vals := if means == [] then [0.0] else means;
    var vmin, vmax := MinOf(vals), MaxOf(vals);
    if vmax - vmin < MinRange then ColorScale(vmin, vmin + 1.0) else ColorScale(vmin, vmax)
  }

  /** Python's `int(x)`: truncation toward zero. */
  function Trunc(x: real): (n: int)
    ensures 0.0 <= x ==> 0 <= n && n as real <= x < n as real + 1.0
    ensures x < 0.0 ==> n <= 0 && n as real - 1.0 < x <= n as real
  {
    if x >= 0.0 then x.Floor else -((-x).Floor)
  }

  /** The position of a value on the scale; 0 at vmin, 1 at vmax. */
  function Norm(c: ColorScale, value: real): (n: real)
    requires c.vmax > c.vmin
    ensures n * (c.vmax - c.vmin) == value - c.vmin
  {
    (value - c.vmin) / (c.vmax - c.vmin)
  }

  /** The red and green components of the ramp at position `norm` (blue is 0). */
  function Ramp(norm: real): (rg: (int, int))
    ensures rg.0 == 255 || rg.1 == 255
    ensures 0.0 <= norm ==> 0 <= rg.0 <= 255
    ensures norm <= 1.0 ==> 0 <= rg.1 <= 255
    ensures norm <= -1.0 / 510.0 ==> rg.0 < 0
    ensures 0.0 <= norm <= 0.5 ==> rg.0 as real <= 510.0 * norm < rg.0 as real + 1.0
    ensures 0.5 < norm <= 1.0 ==> rg.1 as real <= 510.0 * (1.0 - norm) < rg.1 as real + 1.0
  {
    if norm <= 0.5 then (Trunc(255.0 * (norm / 0.5)), 255)
    else (255, Trunc(255.0 * (1.0 - (norm - 0.5) / 0.5)))
  }

  /** get_color: `#rrggbb` of the ramp at the value's position. */
  function GetColor(c: ColorScale, value: real): (s: string)
    requires c.vmax > c.vmin
    ensures 7 <= |s| && s[0] == '#' && s[|s| - 2..] == "00"
    ensures Norm(c, value) <= -1.0 / 510.0 ==> s[1] == '-'
  {
    var (r, g) := Ramp(Norm(c, value));
    HexEndpoints();
    var s := "#" + Text.Hex02(r) + Text.Hex02(g) + Text.Hex02(0);
    assert s[|s| - 2..] == Text.Hex02(0);
    assert s[1] == Text.Hex02(r)[0];
    s
  }

  lemma DivideWithin(a: real, d: real)
    requires 0.0 <= a <= d && d > 0.0
    ensures 0.0 <= a / d <= 1.0
  {
    assert a / d * d == a;
  }

  lemma NormInRange(c: ColorScale, value: real)
    requires c.vmin <= value <= c.vmax && c.vmax > c.vmin
    ensures 0.0 <= Norm(c, value) <= 1.0
  {
    DivideWithin(value - c.vmin, c.vmax - c.vmin);
  }

  /**
   * On [0, 1] the ramp stays within a byte, keeps one of red and green at
   * full strength, and goes green (0, 255) → yellow (255, 255) → red (255, 0).
   */
  lemma RampBounds(norm: real)
    requires 0.0 <= norm <= 1.0
    ensures 0 <= Ramp(norm).0 <= 255 && 0 <= Ramp(norm).1 <= 255
    ensures Ramp(norm).0 == 255 || Ramp(norm).1 == 255
    ensures norm <= 0.5 ==> Ramp(norm).1 == 255
    ensures norm > 0.5 ==> Ramp(norm).0 == 255
  {
  }

  /** Red never decreases and green never increases along the ramp. */
  lemma RampMonotone(n1: real, n2: real)
    requires 0.0 <= n1 <= n2 <= 1.0
    ensures Ramp(n1).0 <= Ramp(n2).0 && Ramp(n1).1 >= Ramp(n2).1
  {
  }

  /** A larger value on the scale is at least as red and at most as green. */
  lemma ColorMonotone(c: ColorScale, v1: real, v2: real)
    requires c.vmax > c.vmin && c.vmin <= v1 <= v2 <= c.vmax
    ensures Ramp(Norm(c, v1)).0 <= Ramp(Norm(c, v2)).0
    ensures Ramp(Norm(c, v1)).1 >= Ramp(Norm(c, v2)).1
  {
    NormInRange(c, v1);
    NormInRange(c, v2);
    var d := c.vmax - c.vmin;
    assert Norm(c, v1) * d == v1 - c.vmin;
    assert Norm(c, v2) * d == v2 - c.vmin;
    NormMonotone(Norm(c, v1), Norm(c, v2), d);
    RampMonotone(Norm(c, v1), Norm(c, v2));
  }

  lemma NormMonotone(a: real, b: real, d: real)
    requires d > 0.0 && a * d <= b * d
    ensures a <= b
  {
  }

  /**
   * An in-range value gets `#` and six lower-case hex digits ending in "00",
   * whose first two and middle two digits read back as the ramp's red and green.
   */
  lemma ColorFormat(c: ColorScale, value: real)
    requires c.vmax > c.vmin && c.vmin <= value <= c.vmax
    ensures var s, rg := GetColor(c, value), Ramp(Norm(c, value));
            && |s| == 7 && s[0] == '#' && s[5..] == "00"
            && (forall i :: 1 <= i < 7 ==> Text.IsDigitIn(s[i], 16))
            && Text.FromBase(s[1..3], 16) == rg.0
            && Text.FromBase(s[3..5], 16) == rg.1
  {
    NormInRange(c, value);
    var rg := Ramp(Norm(c, value));
    RampBounds(Norm(c, value));
    var s := GetColor(c, value);
    assert s == "#" + Text.Hex02(rg.0) + Text.Hex02(rg.1) + Text.Hex02(0);
    assert s[1..3] == Text.Hex02(rg.0);
    assert s[3..5] == Text.Hex02(rg.1);
    assert s[5..] == Text.Hex02(0);
  }

  lemma HexEndpoints()
    ensures Text.Hex02(0) == "00" && Text.Hex02(255) == "ff"
  {
    assert Text.ToBase(0, 16) == "0";
    assert 255 / 16 == 15 && 255 % 16 == 15;
    assert Text.ToBase(15, 16) == "f";
    assert Text.ToBase(255, 16) == "ff";
  }

  lemma NormEndpoints(c: ColorScale)
    requires c.vmax > c.vmin
    ensures Norm(c, c.vmin) == 0.0
    ensures Norm(c, c.vmax) == 1.0
    ensures Norm(c, (c.vmin + c.vmax) / 2.0) == 0.5
  {
    var d := c.vmax - c.vmin;
    DivideExactly(d, d, 1.0);
    assert (c.vmin + c.vmax) / 2.0 - c.vmin == 0.5 * d;
    DivideExactly(0.5 * d, d, 0.5);
  }

  lemma DivideExactly(a: real, d: real, q: real)
    requires d > 0.0 && q * d == a
    ensures a / d == q
  {
    assert (a / d) * d == a;
    assert (a / d - q) * d == 0.0;
  }

  /** The lowest mean is green, the highest red, the midpoint yellow. */
  lemma ColorEndpoints(c: ColorScale)
    requires c.vmax > c.vmin
    ensures GetColor(c, c.vmin) == "#00ff00"
    ensures GetColor(c, c.vmax) == "#ff0000"
    ensures GetColor(c, (c.vmin + c.vmax) / 2.0) == "#ffff00"
  {
    NormEndpoints(c);
    HexEndpoints();
    assert Ramp(0.0) == (0, 255);
    assert Ramp(1.0) == (255, 0);
    assert Ramp(0.5) == (255, 255);
  }

  /** When the means are spread out, the lowest mean is green and the highest red. */
  lemma SpreadMeansColors(means: seq<real>)
    requires means != [] && MaxOf(means) - MinOf(means) >= MinRange
    ensures GetColor(ColorRange(means), MinOf(means)) == "#00ff00"
    ensures GetColor(ColorRange(means), MaxOf(means)) == "#ff0000"
  {
    ColorEndpoints(ColorRange(means));
  }

  /**
   * When the means are (almost) all equal, the scale is widened to 1 and every
   * mean, the highest included, is green.
   */
  lemma FlatMeansGreen(means: seq<real>, i: int)
    requires means != [] && MaxOf(means) - MinOf(means) < MinRange && 0 <= i < |means|
    ensures GetColor(ColorRange(means), means[i]) == "#00ff00"
  {
    var c := ColorRange(means);
    assert c.vmax == c.vmin + 1.0 && c.vmin <= means[i] < c.vmin + MinRange;
    UnitScaleNorm(c, means[i]);
    NearStartGreen(c, means[i]);
  }

  /** On a scale one unit wide, the position is the distance from vmin. */
  lemma UnitScaleNorm(c: ColorScale, value: real)
    requires c.vmax == c.vmin + 1.0
    ensures Norm(c, value) == value - c.vmin
  {
    DivideExactly(value - c.vmin, 1.0, value - c.vmin);
  }

  /** A position within 1/510 of the start truncates to pure green. */
  lemma NearStartGreen(c: ColorScale, value: real)
    requires c.vmax > c.vmin && 0.0 <= Norm(c, value) < 1.0 / 510.0
    ensures GetColor(c, value) == "#00ff00"
  {
    var n := Norm(c, value);
    assert 0.0 <= 255.0 * (n / 0.5) < 1.0;
    assert Ramp(n) == (0, 255);
    EndColors();
  }

  /**
   * A value below the scale, such as the 0.0 default of an area without a
   * mean when every mean is positive, gets a negative red component, which
   * the two-digit hex format writes with a minus sign: not a colour.
   */
  lemma ColorBelowScaleMalformed()
    ensures GetColor(ColorScale(10.0, 20.0), 0.0) == "#-1feff00"
  {
    var c := ColorScale(10.0, 20.0);
    assert Norm(c, 0.0) == -1.0;
    assert Ramp(-1.0) == (-510, 255);
    assert 510 / 16 == 31 && 510 % 16 == 14;
    assert 31 / 16 == 1 && 31 % 16 == 15;
    assert Text.ToBase(1, 16) == "1";
    assert Text.ToBase(31, 16) == "1f";
    assert Text.ToBase(510, 16) == "1fe";
    assert Text.Hex02(-510) == "-1fe";
    HexEndpoints();
  }

  /**
   * The same default lies above the scale when every mean is negative: the
   * green component goes negative and is written with a minus sign.
   */
  lemma ColorAboveScaleMalformed()
    ensures GetColor(ColorScale(-20.0, -10.0), 0.0) == "#ff-1fe00"
  {
    var c := ColorScale(-20.0, -10.0);
    assert Norm(c, 0.0) == 2.0;
    assert Ramp(2.0) == (255, -510);
    assert 510 / 16 == 31 && 510 % 16 == 14;
    assert 31 / 16 == 1 && 31 % 16 == 15;
    assert Text.ToBase(1, 16) == "1";
    assert Text.ToBase(31, 16) == "1f";
    assert Text.ToBase(510, 16) == "1fe";
    assert Text.Hex02(-510) == "-1fe";
    HexEndpoints();
  }

  function ClampUnit(x: real): (y: real)
    ensures 0.0 <= y <= 1.0
    ensures 0.0 <= x <= 1.0 ==> y == x
  {
    if x < 0.0 then 0.0 else if x > 1.0 then 1.0 else x
  }

  /** get_color with the position clamped to the scale, so that every value gets a colour. */
  function ClampedColor(c: ColorScale, value: real): (s: string)
    requires c.vmax > c.vmin
    ensures value <= c.vmin ==> s == "#00ff00"
    ensures c.vmax <= value ==> s == "#ff0000"
  {
    var n := Norm(c, value);
    var rg := Ramp(ClampUnit(n));
    var s := "#" + Text.Hex02(rg.0) + Text.Hex02(rg.1) + Text.Hex02(0);
    if value <= c.vmin then
      NormBelow(c, value);
      assert ClampUnit(n) == 0.0;
      assert Ramp(0.0) == (0, 255);
      EndColors();
      s
    else if c.vmax <= value then
      NormAbove(c, value);
      assert ClampUnit(n) == 1.0;
      assert Ramp(1.0) == (255, 0);
      EndColors();
      s
    else
      s
  }

  /** Green, red and yellow, written the way get_color writes them. */
  lemma EndColors()
    ensures "#" + Text.Hex02(0) + Text.Hex02(255) + Text.Hex02(0) == "#00ff00"
    ensures "#" + Text.Hex02(255) + Text.Hex02(0) + Text.Hex02(0) == "#ff0000"
    ensures "#" + Text.Hex02(255) + Text.Hex02(255) + Text.Hex02(0) == "#ffff00"
  {
    HexEndpoints();
  }

  /** A value at or below the scale sits at or before its start. */
  lemma NormBelow(c: ColorScale, value: real)
    requires c.vmax > c.vmin && value <= c.vmin
    ensures Norm(c, value) <= 0.0
  {
    var d, n := c.vmax - c.vmin, Norm(c, value);
    assert n * d == value - c.vmin;
    NormMonotone(n, 0.0, d);
  }

  /** A value at or above the scale sits at or past its end. */
  lemma NormAbove(c: ColorScale, value: real)
    requires c.vmax > c.vmin && c.vmax <= value
    ensures 1.0 <= Norm(c, value)
  {
    var d, n := c.vmax - c.vmin, Norm(c, value);
    assert n * d == value - c.vmin;
    NormMonotone(1.0, n, d);
  }

  /** Every value, in range or not, gets `#` and six hex digits ending in "00". */
  lemma ClampedColorWellFormed(c: ColorScale, value: real)
    requires c.vmax > c.vmin
    ensures var s := ClampedColor(c, value);
            && |s| == 7 && s[0] == '#' && s[5..] == "00"
            && (forall i :: 1 <= i < 7 ==> Text.IsDigitIn(s[i], 16))
  {
    var rg := Ramp(ClampUnit(Norm(c, value)));
    RampBounds(ClampUnit(Norm(c, value)));
    var s := ClampedColor(c, value);
    assert s == "#" + Text.Hex02(rg.0) + Text.Hex02(rg.1) + Text.Hex02(0);
    assert s[1..3] == Text.Hex02(rg.0);
    assert s[3..5] == Text.Hex02(rg.1);
    assert s[5..] == Text.Hex02(0);
  }

  /** On the scale the clamped colour is get_color's colour. */
  lemma ClampedColorInRange(c: ColorScale, value: real)
    requires c.vmax > c.vmin && c.vmin <= value <= c.vmax
    ensures ClampedColor(c, value) == GetColor(c, value)
  {
    NormInRange(c, value);
  }

  // ---------------------------------------------------------------------------
  // style_function
  // ---------------------------------------------------------------------------

  datatype Style = Style(fillColor: string, color: string, weight: int, fillOpacity: real)

  /** `means.get(area, 0.0)` */
  function MeanOf(means: map<Json, real>, area: Json): (m: real)
    ensures area in means ==> m == means[area]
    ensures area !in means ==> m == 0.0
  {
    if area in means then means[area] else 0.0
  }

  /** Whether the feature of `area` is the selected one. */
  predicate IsSelected(selected: Json, area: Json)
    ensures IsSelected(selected, area) ==> !selected.JNull? && !area.JNull?
  {
    Truthy(selected) && NormalizeAreaName(selected) == NormalizeAreaName(area)
  }

  /** style_function for a feature with properties `props`, as written: get_color of `means.get(area, 0.0)`. */
  function StyleFor(props: PropMap, selected: Json, means: map<Json, real>, c: ColorScale): (st: Style)
    requires c.vmax > c.vmin
    ensures var area := Get(props, CanonicalKey);
            && st.fillColor == GetColor(c, MeanOf(means, area))
            && (st.color == "red" <==> IsSelected(selected, area))
            && (st.color == "red" ==> st.weight == 3 && st.fillOpacity == 0.6)
            && (st.color != "red" ==> st.color == "black" && st.weight == 1 && st.fillOpacity == 0.4)
  {
    var area := Get(props, CanonicalKey);
    var fill := GetColor(c, MeanOf(means, area));
    if IsSelected(selected, area) then Style(fill, "red", 3, 0.6)
    else Style(fill, "black", 1, 0.4)
  }

  /**
   * style_function with the colour position clamped to the scale: the same
   * outline, and a fill that is always a colour of the ramp.
   */
  function StyleForClamped(props: PropMap, selected: Json, means: map<Json, real>, c: ColorScale): (st: Style)
    requires c.vmax > c.vmin
    ensures var m := MeanOf(means, Get(props, CanonicalKey));
            && st == StyleFor(props, selected, means, c).(fillColor := ClampedColor(c, m))
            && |st.fillColor| == 7 && st.fillColor[0] == '#'
            && (c.vmin <= m <= c.vmax ==> st == StyleFor(props, selected, means, c))
  {
    var m := MeanOf(means, Get(props, CanonicalKey));
    ClampedColorWellFormed(c, m);
    var st := StyleFor(props, selected, means, c).(fillColor := ClampedColor(c, m));
    if c.vmin <= m <= c.vmax then
      ClampedColorInRange(c, m);
      st
    else
      st
  }

  /**
   * With the scale built from the means, an area that has a mean is styled
   * exactly as style_function styles it: clamping changes nothing there.
   */
  lemma KnownAreaFill(props: PropMap, selected: Json, means: map<Json, real>, vals: seq<real>)
    requires forall a :: a in means ==> means[a] in vals
    requires Get(props, CanonicalKey) in means
    ensures var c := ColorRange(vals);
            && c.vmax > c.vmin
            && StyleForClamped(props, selected, means, c) == StyleFor(props, selected, means, c)
  {
    var c := ColorRange(vals);
    var m := means[Get(props, CanonicalKey)];
    var i :| 0 <= i < |vals| && vals[i] == m;
    assert c.vmin <= m <= c.vmax;
  }

  /** The scale of the means 10 and 20. */
  lemma TenTwentyScale()
    ensures ColorRange([10.0, 20.0]) == ColorScale(10.0, 20.0)
  {
    assert MinOf([10.0, 20.0][1..]) == 20.0;
    assert MaxOf([10.0, 20.0][1..]) == 20.0;
  }

  /**
   * As written, an area without a mean is filled with get_color(0.0), which
   * is below a scale of positive means: the fill is not a colour.
   */
  lemma MissingAreaFillMalformed(selected: Json)
    ensures var means := map[JStr("NO1") := 10.0, JStr("NO2") := 20.0];
            StyleFor([], selected, means, ColorRange([10.0, 20.0])).fillColor == "#-1feff00"
  {
    TenTwentyScale();
    ColorBelowScaleMalformed();
  }

  /** With the position clamped, the same area is filled green, the colour of the scale's start. */
  lemma MissingAreaFillClamped(selected: Json)
    ensures var means := map[JStr("NO1") := 10.0, JStr("NO2") := 20.0];
            StyleForClamped([], selected, means, ColorRange([10.0, 20.0])).fillColor == "#00ff00"
  {
    TenTwentyScale();
  }

  /** A feature without an area name is never highlighted. */
  lemma NullAreaNeverSelected(selected: Json)
    ensures !IsSelected(selected, JNull)
  {
  }

  /** Selection ignores spacing and letter case: "no 2" selects the area "NO2". */
  lemma SelectionIgnoresSpacing(selected: string, area: string)
    requires selected != ""
    requires Text.StripSpaces(Text.Upper(selected)) == Text.StripSpaces(Text.Upper(area))
    ensures IsSelected(JStr(selected), JStr(area))
  {
  }
}

=== FILE: snowdrift.dfy ===
/**
 * The snow-drift estimator of the Snowdrift page: the wind-power-law
 * transport potential, its split into 16 compass sectors, the choice between
 * the snowfall-controlled and wind-controlled regimes, and the aggregation of
 * an hourly weather series into hydrological seasons (July to June).
 *
 * Python floats are modelled as exact reals. The two transcendental powers of
 * the source, u^3.8 and 0.14^x, are parameters `pow38` and `pow014`; the laws
 * the proofs rely on are stated by `IsPowerLaw` and `IsDecay`.
 */
module Snowdrift {
  import opened Wrappers
  import Text

  /** The divisor of the transport potential. */
  const TransportDivisor: real := 233847.0
  /** `dt`, the length of one hourly step in seconds (the default of every caller). */
  const HourSeconds: real := 3600.0
  const SectorCount: nat := 16
  /** Width of one compass sector in degrees. */
  const SectorWidth: real := 22.5

  /** u^3.8 is non-negative for a non-negative wind speed. */
  ghost predicate IsPowerLaw(pow38: real -> real)
  {
    forall u :: u >= 0.0 ==> pow38(u) >= 0.0
  }

  /** 0.14^x lies in (0, 1] for a non-negative exponent. */
  ghost predicate IsDecay(pow014: real -> real)
  {
    forall x :: x >= 0.0 ==> 0.0 < pow014(x) <= 1.0
  }

  predicate AllNonNegative(s: seq<real>)
  {
    forall i :: 0 <= i < |s| ==> s[i] >= 0.0
  }

  function Sum(s: seq<real>): real
  {
    if s == [] then 0.0 else s[0] + Sum(s[1..])
  }

  // ---------------------------------------------------------------------------
  // Transport potential
  // ---------------------------------------------------------------------------

  /** The sum of u^3.8 · dt over the hours of the series: the generator sum of pages/Snowdrift.py:13. */
  function PowerSum(pow38: real -> real, speeds: seq<real>, dt: real): real
  {
    if speeds == [] then 0.0
    else PowerSum(pow38, speeds[..|speeds| - 1], dt) + pow38(speeds[|speeds| - 1]) * dt
  }

  /** compute_Qupot: the wind-power-law transport potential of a series of hourly speeds. */
  function Qupot(pow38: real -> real, speeds: seq<real>, dt: real): (q: real)
    ensures speeds == [] ==> q == 0.0
  {
    PowerSum(pow38, speeds, dt) / TransportDivisor
  }

  lemma {:induction false} PowerSumNonNegative(pow38: real -> real, speeds: seq<real>, dt: real)
    requires IsPowerLaw(pow38) && AllNonNegative(speeds) && dt >= 0.0
    ensures PowerSum(pow38, speeds, dt) >= 0.0
  {
    if speeds != [] {
      var n := |speeds| - 1;
      PowerSumNonNegative(pow38, speeds[..n], dt);
      assert pow38(speeds[n]) >= 0.0;
      assert pow38(speeds[n]) * dt >= 0.0;
    }
  }

  /** The potential of non-negative speeds is non-negative. */
  lemma QupotNonNegative(pow38: real -> real, speeds: seq<real>, dt: real)
    requires IsPowerLaw(pow38) && AllNonNegative(speeds) && dt >= 0.0
    ensures Qupot(pow38, speeds, dt) >= 0.0
  {
    PowerSumNonNegative(pow38, speeds, dt);
  }

  /** The potential of two consecutive series is the sum of their potentials. */
  lemma {:induction false} QupotAppend(pow38: real -> real, a: seq<real>, b: seq<real>, dt: real)
    ensures Qupot(pow38, a + b, dt) == Qupot(pow38, a, dt) + Qupot(pow38, b, dt)
    decreases |b|
  {
    PowerSumAppend(pow38, a, b, dt);
  }

  lemma {:induction false} PowerSumAppend(pow38: real -> real, a: seq<real>, b: seq<real>, dt: real)
    ensures PowerSum(pow38, a + b, dt) == PowerSum(pow38, a, dt) + PowerSum(pow38, b, dt)
    decreases |b|
  {
    if b == [] {
      assert a + b == a;
    } else {
      var n := |b| - 1;
      assert (a + b)[..|a + b| - 1] == a + b[..n];
      assert (a + b)[|a + b| - 1] == b[n];
      PowerSumAppend(pow38, a, b[..n], dt);
    }
  }

  // ---------------------------------------------------------------------------
  // Compass sectors
  // ---------------------------------------------------------------------------

  /** Python's `x % 360`: the remainder takes the sign of the divisor. */
  function Mod360(x: real): (r: real)
    ensures 0.0 <= r < 360.0
  {
    x - 360.0 * (x / 360.0).Floor as real
  }

  lemma Mod360Of(x: real, k: int)
    requires 360.0 * k as real <= x < 360.0 * (k + 1) as real
    ensures Mod360(x) == x - 360.0 * k as real
  {
    assert (x / 360.0).Floor == k;
  }

  /** sector_index: `int(((direction + 11.25) % 360) // 22.5)`. */
  function SectorIndex(direction: real): (k: int)
    ensures 0 <= k < SectorCount
  {
    (Mod360(direction + 11.25) / SectorWidth).Floor
  }

  /** Adding whole turns to a direction does not change its sector. */
  lemma SectorPeriodic(direction: real, turns: int)
    ensures SectorIndex(direction + 360.0 * turns as real) == SectorIndex(direction)
  {
    var x := direction + 11.25;
    var k := (x / 360.0).Floor;
    Mod360Of(x, k);
    Mod360Of(x + 360.0 * turns as real, k + turns);
  }

  /**
   * The arc of compass bearings in [0, 360) that sector k covers:
   * [22.5·k − 11.25, 22.5·k + 11.25), where sector 0 ("N") wraps around
   * as [348.75, 360) ∪ [0, 11.25).
   */
  predicate InArc(direction: real, k: int)
  {
    if k == 0 then direction < 11.25 || 348.75 <= direction
    else SectorWidth * k as real - 11.25 <= direction < SectorWidth * k as real + 11.25
  }

  /** A bearing in [0, 360) is in sector k exactly when it lies in the arc of k. */
  lemma SectorArc(direction: real, k: int)
    requires 0.0 <= direction < 360.0 && 0 <= k < SectorCount
    ensures SectorIndex(direction) == k <==> InArc(direction, k)
  {
    var x := direction + 11.25;
    if direction < 348.75 {
      Mod360Of(x, 0);
    } else {
      Mod360Of(x, 1);
    }
  }

  /** The names of the sectors, in sector order, as the wind rose labels them. */
  const CompassPoints: seq<string> :=
    ["N", "NNE", "NE", "ENE", "E", "ESE", "SE", "SSE",
     "S", "SSW", "SW", "WSW", "W", "WNW", "NW", "NNW"]

  /** The wind rose draws sector k at bearing 22.5·k; that bearing falls in sector k. */
  lemma SectorOfBearing(k: int)
    requires 0 <= k < SectorCount
    ensures |CompassPoints| == SectorCount
    ensures SectorIndex(SectorWidth * k as real) == k
  {
    SectorArc(SectorWidth * k as real, k);
  }

  /** The share of one hour's wind in the transport potential, added to its slot at pages/Snowdrift.py:23. */
  function SectorTerm(pow38: real -> real, u: real, dt: real): real
  {
    (pow38(u) * dt) / TransportDivisor
  }

  /** The 16 sector totals after the hours of `speeds` and `dirs`, in order. */
  function SectorSums(pow38: real -> real, speeds: seq<real>, dirs: seq<real>, dt: real): (v: seq<real>)
    requires |speeds| == |dirs|
    ensures |v| == SectorCount
  {
    if speeds == [] then seq(SectorCount, _ => 0.0)
    else
      var n := |speeds| - 1;
      var prev := SectorSums(pow38, speeds[..n], dirs[..n], dt);
      var k := SectorIndex(dirs[n]);
      prev[k := prev[k] + SectorTerm(pow38, speeds[n], dt)]
  }

  /** The sum of the terms of the hours whose direction falls in sector k. */
  function SlotSum(pow38: real -> real, speeds: seq<real>, dirs: seq<real>, dt: real, k: int): real
    requires |speeds| == |dirs|
  {
    if speeds == [] then 0.0
    else
      var n := |speeds| - 1;
      SlotSum(pow38, speeds[..n], dirs[..n], dt, k)
      + (if SectorIndex(dirs[n]) == k then SectorTerm(pow38, speeds[n], dt) else 0.0)
  }

  /** One more hour adds its term to the slot of its direction and to no other slot. */
  lemma SectorSumsStep(pow38: real -> real, speeds: seq<real>, dirs: seq<real>, u: real, d: real, dt: real, k: int)
    requires |speeds| == |dirs| && 0 <= k < SectorCount
    ensures SectorSums(pow38, speeds + [u], dirs + [d], dt)[k]
         == SectorSums(pow38, speeds, dirs, dt)[k] + (if k == SectorIndex(d) then SectorTerm(pow38, u, dt) else 0.0)
  {
    assert (speeds + [u])[..|speeds|] == speeds;
    assert (dirs + [d])[..|dirs|] == dirs;
  }

  /** Slot k holds exactly the terms of the hours whose direction falls in sector k. */
  lemma {:induction false} SectorSumsSlot(pow38: real -> real, speeds: seq<real>, dirs: seq<real>, dt: real, k: int)
    requires |speeds| == |dirs| && 0 <= k < SectorCount
    ensures SectorSums(pow38, speeds, dirs, dt)[k] == SlotSum(pow38, speeds, dirs, dt, k)
  {
    if speeds != [] {
      var n := |speeds| - 1;
      SectorSumsSlot(pow38, speeds[..n], dirs[..n], dt, k);
    }
  }

  lemma {:induction false} SumOfUpdate(s: seq<real>, k: int, t: real)
    requires 0 <= k < |s|
    ensures Sum(s[k := s[k] + t]) == Sum(s) + t
  {
    if k > 0 {
      assert s[k := s[k] + t][1..] == s[1..][k - 1 := s[1..][k - 1] + t];
      SumOfUpdate(s[1..], k - 1, t);
    } else {
      assert s[k := s[k] + t][1..] == s[1..];
    }
  }

  lemma {:induction false} SumOfZeros(n: nat)
    ensures Sum(seq(n, _ => 0.0)) == 0.0
  {
    if n > 0 {
      assert seq(n, _ => 0.0)[1..] == seq(n - 1, _ => 0.0);
      SumOfZeros(n - 1);
    }
  }

  /** The 16 sectors together hold exactly the transport potential of the series. */
  lemma {:induction false} SectorSumsTotal(pow38: real -> real, speeds: seq<real>, dirs: seq<real>, dt: real)
    requires |speeds| == |dirs|
    ensures Sum(SectorSums(pow38, speeds, dirs, dt)) == Qupot(pow38, speeds, dt)
  {
    if speeds == [] {
      SumOfZeros(SectorCount);
    } else {
      var n := |speeds| - 1;
      var prev := SectorSums(pow38, speeds[..n], dirs[..n], dt);
      SectorSumsTotal(pow38, speeds[..n], dirs[..n], dt);
      SumOfUpdate(prev, SectorIndex(dirs[n]), SectorTerm(pow38, speeds[n], dt));
    }
  }

  /** Every sector total of non-negative speeds is non-negative. */
  lemma {:induction false} SectorSumsNonNegative(pow38: real -> real, speeds: seq<real>, dirs: seq<real>, dt: real)
    requires |speeds| == |dirs|
    requires IsPowerLaw(pow38) && AllNonNegative(speeds) && dt >= 0.0
    ensures AllNonNegative(SectorSums(pow38, speeds, dirs, dt))
  {
    if speeds != [] {
      var n := |speeds| - 1;
      SectorSumsNonNegative(pow38, speeds[..n], dirs[..n], dt);
      assert pow38(speeds[n]) >= 0.0;
      assert pow38(speeds[n]) * dt >= 0.0;
    }
  }

  /**
   * compute_sector_transport: walks the hours of `zip(speeds, dirs)` (as many
   * as the shorter list has) and adds each hour's term to its sector's slot.
   */
  method SectorTransport(pow38: real -> real, speeds: seq<real>, dirs: seq<real>, dt: real) returns (sectors: seq<real>)
    ensures var hours := if |speeds| <= |dirs| then |speeds| else |dirs|;
            sectors == SectorSums(pow38, speeds[..hours], dirs[..hours], dt)
  {
    var hours := if |speeds| <= |dirs| then |speeds| else |dirs|;
    var slots := new real[SectorCount](_ => 0.0);
    var i := 0;
    while i < hours
      invariant 0 <= i <= hours
      invariant slots[..] == SectorSums(pow38, speeds[..i], dirs[..i], dt)
    {
      var idx := SectorIndex(dirs[i]);
      assert speeds[..i + 1][..i] == speeds[..i];
      assert dirs[..i + 1][..i] == dirs[..i];
      slots[idx] := slots[idx] + SectorTerm(pow38, speeds[i], dt);
      i := i + 1;
    }
    sectors := slots[..];
  }

  // ---------------------------------------------------------------------------
  // Snowfall- or wind-controlled transport
  // ---------------------------------------------------------------------------

  datatype Control = SnowfallControlled | WindControlled

  /** The quantities compute_snow_transport reports for one season. */
  datatype Transport = Transport(qupot: real, qspot: real, srwe: real, qinf: real, qt: real, control: Control)

  /** The one exception of the computation: `F / T` with `T == 0`. */
  datatype Error = DivisionByZero

  /**
   * compute_snow_transport with fetch distance T, snow-drift factor F,
   * relocation coefficient theta and seasonal snow-water equivalent `swe`.
   */
  function SnowTransport(pow38: real -> real, pow014: real -> real, T: real, F: real, theta: real,
                         swe: real, speeds: seq<real>, dt: real): (r: Result<Transport, Error>)
    ensures r.Failure? <==> T == 0.0
    ensures r.Success? ==>
      && r.value.qupot == Qupot(pow38, speeds, dt)
      && r.value.qspot == 0.5 * T * swe
      && r.value.srwe == theta * swe
      && (r.value.control == SnowfallControlled <==> r.value.qupot > r.value.qspot)
      && (r.value.control == SnowfallControlled ==> r.value.qinf == theta * r.value.qspot)
      && (r.value.control == WindControlled ==> r.value.qinf == r.value.qupot)
      && r.value.qt == r.value.qinf * (1.0 - pow014(F / T))
  {
    var qupot := Qupot(pow38, speeds, dt);
    var qspot := 0.5 * T * swe;
    var srwe := theta * swe;
    var (qinf, control) :=
      if qupot > qspot then (0.5 * T * srwe, SnowfallControlled) else (qupot, WindControlled);
    if T == 0.0 then Failure(DivisionByZero)
    else Success(Transport(qupot, qspot, srwe, qinf, qinf * (1.0 - pow014(F / T)), control))
  }

  /** The realised transport never exceeds the controlling transport Qinf, nor falls below zero. */
  lemma QtBounds(pow38: real -> real, pow014: real -> real, T: real, F: real, theta: real,
                 swe: real, speeds: seq<real>, dt: real)
    requires IsDecay(pow014) && T > 0.0 && F >= 0.0
    ensures var r := SnowTransport(pow38, pow014, T, F, theta, swe, speeds, dt);
            r.Success? && (r.value.qinf >= 0.0 ==> 0.0 <= r.value.qt <= r.value.qinf)
  {
    var r := SnowTransport(pow38, pow014, T, F, theta, swe, speeds, dt);
    var x := F / T;
    assert x * T == F;
    assert x >= 0.0;
    var p := pow014(x);
    assert 0.0 < p <= 1.0;
    var qinf := r.value.qinf;
    assert r.value.qt == qinf * (1.0 - p);
    if qinf >= 0.0 {
      ProductNonNegative(qinf, 1.0 - p);
      ProductAtMost(qinf, 1.0 - p);
    }
  }

  lemma ProductAtMost(a: real, b: real)
    requires a >= 0.0 && 0.0 <= b <= 1.0
    ensures a * b <= a
  {
    ProductNonNegative(a, 1.0 - b);
  }

  /** With non-negative inputs the controlling transport Qinf is non-negative. */
  lemma QinfNonNegative(pow38: real -> real, pow014: real -> real, T: real, F: real, theta: real,
                        swe: real, speeds: seq<real>, dt: real)
    requires IsPowerLaw(pow38) && AllNonNegative(speeds) && dt >= 0.0
    requires T > 0.0 && theta >= 0.0 && swe >= 0.0
    ensures SnowTransport(pow38, pow014, T, F, theta, swe, speeds, dt).value.qinf >= 0.0
  {
    QupotNonNegative(pow38, speeds, dt);
    assert theta * swe >= 0.0;
    assert 0.5 * T * (theta * swe) >= 0.0;
  }

  /**
   * When at most all of the snowfall can be relocated (theta ≤ 1), the
   * controlling transport never exceeds the wind's transport potential.
   */
  lemma QinfAtMostPotential(pow38: real -> real, pow014: real -> real, T: real, F: real, theta: real,
                            swe: real, speeds: seq<real>, dt: real)
    requires T > 0.0 && 0.0 <= theta <= 1.0 && swe >= 0.0
    ensures var t := SnowTransport(pow38, pow014, T, F, theta, swe, speeds, dt).value;
            t.qinf <= t.qupot
  {
    var t := SnowTransport(pow38, pow014, T, F, theta, swe, speeds, dt).value;
    ProductNonNegative(0.5 * T, swe);
    ProductNonNegative(1.0 - theta, t.qspot);
    assert theta * t.qspot <= t.qspot;
  }

  lemma ProductNonNegative(a: real, b: real)
    requires a >= 0.0 && b >= 0.0
    ensures a * b >= 0.0
  {
  }

  // ---------------------------------------------------------------------------
  // Hydrological seasons
  // ---------------------------------------------------------------------------

  /** A UTC timestamp with whole seconds, as the hourly index holds them. */
  datatype Timestamp = Timestamp(year: int, month: int, day: int, hour: int, minute: int, second: int)

  predicate IsLeapYear(y: int)
  {
    y % 4 == 0 && (y % 100 != 0 || y % 400 == 0)
  }

  function DaysInMonth(y: int, m: int): int
    requires 1 <= m <= 12
  {
    if m == 2 then (if IsLeapYear(y) then 29 else 28)
    else if m == 4 || m == 6 || m == 9 || m == 11 then 30
    else 31
  }

  predicate ValidTimestamp(t: Timestamp)
  {
    && 1 <= t.month <= 12
    && 1 <= t.day <= DaysInMonth(t.year, t.month)
    && 0 <= t.hour < 24 && 0 <= t.minute < 60 && 0 <= t.second < 60
  }

  /** Chronological order: `a` is not later than `b`. */
  predicate NotAfter(a: Timestamp, b: Timestamp)
  {
    a.year < b.year || (a.year == b.year &&
    (a.month < b.month || (a.month == b.month &&
    (a.day < b.day || (a.day == b.day &&
    (a.hour < b.hour || (a.hour == b.hour &&
    (a.minute < b.minute || (a.minute == b.minute && a.second <= b.second)))))))))
  }

  /** The season column: the year for July to December, the previous year for January to June. */
  function Season(t: Timestamp): (s: int)
    ensures ValidTimestamp(t) ==>
              NotAfter(Timestamp(s, 7, 1, 0, 0, 0), t) && !NotAfter(Timestamp(s + 1, 7, 1, 0, 0, 0), t)
  {
    if t.month >= 7 then t.year else t.year - 1
  }

  /** The window compute_yearly_results selects for season s: July 1 of s to June 30 of s+1, 23:59:59. */
  predicate InSeasonWindow(t: Timestamp, s: int)
    ensures InSeasonWindow(t, s) ==> (t.year == s && 7 <= t.month) || (t.year == s + 1 && t.month <= 6)
  {
    NotAfter(Timestamp(s, 7, 1, 0, 0, 0), t) && NotAfter(t, Timestamp(s + 1, 6, 30, 23, 59, 59))
  }

  /** A timestamp lies in the window of season s exactly when its season is s. */
  lemma SeasonWindow(t: Timestamp, s: int)
    requires ValidTimestamp(t)
    ensures InSeasonWindow(t, s) <==> Season(t) == s
  {
    if t.month == 6 {
      assert DaysInMonth(t.year, 6) == 30;
    }
  }

  /** One row of the hourly weather series. */
  datatype HourlyRecord = HourlyRecord(time: Timestamp, temperature: real, precipitation: real,
                                       windSpeed: real, windDirection: real)

  predicate AllValid(rows: seq<HourlyRecord>)
  {
    forall i :: 0 <= i < |rows| ==> ValidTimestamp(rows[i].time)
  }

  /** An hour's snow-water equivalent: its precipitation when colder than 1 °C, otherwise nothing. */
  function HourlySwe(r: HourlyRecord): (swe: real)
    ensures r.temperature < 1.0 ==> swe == r.precipitation
    ensures swe != 0.0 ==> r.temperature < 1.0 && swe == r.precipitation
    ensures 0.0 <= r.precipitation ==> 0.0 <= swe <= r.precipitation
  {
    if r.temperature < 1.0 then r.precipitation else 0.0
  }

  /** The season's total snow-water equivalent. */
  function TotalSwe(rows: seq<HourlyRecord>): (total: real)
    ensures (forall i :: 0 <= i < |rows| ==> rows[i].precipitation >= 0.0) ==> total >= 0.0
    ensures (forall i :: 0 <= i < |rows| ==> rows[i].temperature >= 1.0) ==> total == 0.0
  {
    if rows == [] then 0.0 else TotalSwe(rows[..|rows| - 1]) + HourlySwe(rows[|rows| - 1])
  }

  /** A single hour's total is its own contribution. */
  lemma TotalSweSingle(r: HourlyRecord)
    ensures TotalSwe([r]) == HourlySwe(r)
  {
    assert [r][..0] == [];
  }

  /** The total over consecutive stretches of hours is the sum of their totals. */
  lemma {:induction false} TotalSweAppend(a: seq<HourlyRecord>, b: seq<HourlyRecord>)
    ensures TotalSwe(a + b) == TotalSwe(a) + TotalSwe(b)
  {
    if b == [] {
      assert a + b == a;
    } else {
      var n := |b| - 1;
      assert (a + b)[..|a + b| - 1] == a + b[..n];
      TotalSweAppend(a, b[..n]);
    }
  }

  /** The wind-speed column as a list: the `.tolist()` calls at pages/Snowdrift.py:54 and 67. */
  function Speeds(rows: seq<HourlyRecord>): (s: seq<real>)
    ensures |s| == |rows| && forall i :: 0 <= i < |rows| ==> s[i] == rows[i].windSpeed
  {
    seq(|rows|, i requires 0 <= i < |rows| => rows[i].windSpeed)
  }

  /** The wind-direction column as a list, `group["wind_direction_10m"].tolist()` at pages/Snowdrift.py:68. */
  function Directions(rows: seq<HourlyRecord>): (s: seq<real>)
    ensures |s| == |rows| && forall i :: 0 <= i < |rows| ==> s[i] == rows[i].windDirection
  {
    seq(|rows|, i requires 0 <= i < |rows| => rows[i].windDirection)
  }

  predicate StrictlyIncreasing(s: seq<int>)
  {
    forall i, j :: 0 <= i < j < |s| ==> s[i] < s[j]
  }

  function InsertSorted(s: seq<int>, x: int): (r: seq<int>)
    requires StrictlyIncreasing(s)
    ensures StrictlyIncreasing(r)
    ensures forall y :: y in r <==> y in s || y == x
  {
    if s == [] then [x]
    else if x < s[0] then [x] + s
    else if x == s[0] then s
    else
      var rest := InsertSorted(s[1..], x);
      assert forall y :: y in s[1..] ==> s[0] < y by {
        forall y | y in s[1..] ensures s[0] < y {
          var j :| 0 <= j < |s[1..]| && s[1..][j] == y;
          assert s[j + 1] == y;
        }
      }
      assert forall j :: 0 <= j < |rest| ==> s[0] < rest[j] by {
        forall j | 0 <= j < |rest| ensures s[0] < rest[j] {
          assert rest[j] in rest;
        }
      }
      [s[0]] + rest
  }

  /** `sorted(df['season'].unique())`: every season of the series once, ascending. */
  function SortedSeasons(rows: seq<HourlyRecord>): (r: seq<int>)
    ensures StrictlyIncreasing(r)
    ensures forall s :: s in r <==> exists i :: 0 <= i < |rows| && Season(rows[i].time) == s
  {
    if rows == [] then []
    else
      var n := |rows| - 1;
      var r := InsertSorted(SortedSeasons(rows[..n]), Season(rows[n].time));
      assert forall i :: 0 <= i < n ==> rows[..n][i] == rows[i];
      r
  }

  /** The rows inside the window of season s, in their order. */
  function WindowRows(rows: seq<HourlyRecord>, s: int): (w: seq<HourlyRecord>)
    ensures forall r :: r in w ==> r in rows && InSeasonWindow(r.time, s)
    ensures forall i :: 0 <= i < |rows| && InSeasonWindow(rows[i].time, s) ==> rows[i] in w
    ensures forall r :: multiset(w)[r] == if InSeasonWindow(r.time, s) then multiset(rows)[r] else 0
  {
    if rows == [] then []
    else
      var n := |rows| - 1;
      assert rows == rows[..n] + [rows[n]];
      WindowRows(rows[..n], s) + (if InSeasonWindow(rows[n].time, s) then [rows[n]] else [])
  }

  /** The group of season s: the rows whose season column is s, in their order. */
  function GroupRows(rows: seq<HourlyRecord>, s: int): (g: seq<HourlyRecord>)
    ensures forall r :: r in g ==> r in rows && Season(r.time) == s
    ensures forall i :: 0 <= i < |rows| && Season(rows[i].time) == s ==> rows[i] in g
    ensures forall r :: multiset(g)[r] == if Season(r.time) == s then multiset(rows)[r] else 0
  {
    if rows == [] then []
    else
      var n := |rows| - 1;
      assert rows == rows[..n] + [rows[n]];
      GroupRows(rows[..n], s) + (if Season(rows[n].time) == s then [rows[n]] else [])
  }

  /** Selecting a season by its date window picks the same rows as grouping by the season column. */
  lemma {:induction false} WindowIsGroup(rows: seq<HourlyRecord>, s: int)
    requires AllValid(rows)
    ensures WindowRows(rows, s) == GroupRows(rows, s)
  {
    if rows != [] {
      var n := |rows| - 1;
      WindowIsGroup(rows[..n], s);
      SeasonWindow(rows[n].time, s);
    }
  }

  lemma {:induction false} GroupOfOwnSeason(rows: seq<HourlyRecord>, i: int)
    requires 0 <= i < |rows|
    ensures GroupRows(rows, Season(rows[i].time)) != []
  {
    var n := |rows| - 1;
    if i < n {
      GroupOfOwnSeason(rows[..n], i);
    }
  }

  /** The label of season s: `f"{s}-{s+1}"`. */
  function SeasonLabel(s: int): (l: string)
    ensures l == Text.Decimal(s) + "-" + Text.Decimal(s + 1)
    ensures 0 <= s ==> var k := |Text.Decimal(s)|;
              && k < |l| && l[k] == '-'
              && Text.FromBase(l[..k], 10) == s && Text.FromBase(l[k + 1..], 10) == s + 1
  {
    var a, b := Text.Decimal(s), Text.Decimal(s + 1);
    assert (a + "-" + b)[..|a|] == a;
    assert (a + "-" + b)[|a| + 1..] == b;
    a + "-" + b
  }

  /** The labels of seasons from year 0 on identify their season. */
  lemma SeasonLabelInjective(s: int, t: int)
    requires s >= 0 && t >= 0 && SeasonLabel(s) == SeasonLabel(t)
    ensures s == t
  {
    var a, b := Text.Decimal(s), Text.Decimal(t);
    PrefixBeforeDash(a, b, Text.Decimal(s + 1), Text.Decimal(t + 1));
    Text.DecimalInjective(s, t);
  }

  lemma PrefixBeforeDash(a: string, b: string, x: string, y: string)
    requires forall i :: 0 <= i < |a| ==> Text.IsDigitIn(a[i], 10)
    requires forall i :: 0 <= i < |b| ==> Text.IsDigitIn(b[i], 10)
    requires a + "-" + x == b + "-" + y
    ensures a == b
  {
    FirstDash(a, x);
    FirstDash(b, y);
    if |a| != |b| {
      assert false;
    }
    assert a == (a + "-" + x)[..|a|];
  }

  /** In digits followed by "-", the first dash is the one after the digits. */
  lemma FirstDash(a: string, x: string)
    requires forall i :: 0 <= i < |a| ==> Text.IsDigitIn(a[i], 10)
    ensures (a + "-" + x)[|a|] == '-'
    ensures forall i :: 0 <= i < |a| ==> (a + "-" + x)[i] != '-'
  {
    forall i | 0 <= i < |a| ensures (a + "-" + x)[i] != '-' {
      assert (a + "-" + x)[i] == a[i];
      assert Text.IsDigitIn(a[i], 10);
    }
  }

  /** One row of the yearly table: the season label with that season's transport. */
  datatype SeasonResult = SeasonResult(season: string, transport: Transport)

  /**
   * The yearly table after one more season s: a season whose window is empty
   * is skipped; a failing season aborts the whole table.
   */
  function NextResults(pow38: real -> real, pow014: real -> real, rows: seq<HourlyRecord>,
                       T: real, F: real, theta: real,
                       prev: Result<seq<SeasonResult>, Error>, s: int): (next: Result<seq<SeasonResult>, Error>)
    ensures prev.Failure? ==> next == prev
    ensures next.Success? ==> prev.Success? && |prev.value| <= |next.value| <= |prev.value| + 1
                              && next.value[..|prev.value|] == prev.value
  {
    match prev
    case Failure(e) => Failure(e)
    case Success(acc) =>
      var window := WindowRows(rows, s);
      if window == [] then Success(acc)
      else
        match SnowTransport(pow38, pow014, T, F, theta, TotalSwe(window), Speeds(window), HourSeconds)
        case Failure(e) => Failure(e)
        case Success(t) => Success(acc + [SeasonResult(SeasonLabel(s), t)])
  }

  /** The yearly table after the seasons of `seasons` have been processed in order. */
  function ResultsFor(pow38: real -> real, pow014: real -> real, rows: seq<HourlyRecord>,
                      T: real, F: real, theta: real, seasons: seq<int>): (r: Result<seq<SeasonResult>, Error>)
    ensures r.Success? ==> |r.value| <= |seasons|
  {
    if seasons == [] then Success([])
    else
      var n := |seasons| - 1;
      NextResults(pow38, pow014, rows, T, F, theta,
                  ResultsFor(pow38, pow014, rows, T, F, theta, seasons[..n]), seasons[n])
  }

  lemma {:induction false} ResultsForFailureStays(pow38: real -> real, pow014: real -> real, rows: seq<HourlyRecord>,
                                                  T: real, F: real, theta: real, seasons: seq<int>, i: int)
    requires 0 <= i <= |seasons|
    requires ResultsFor(pow38, pow014, rows, T, F, theta, seasons[..i]).Failure?
    ensures ResultsFor(pow38, pow014, rows, T, F, theta, seasons)
         == ResultsFor(pow38, pow014, rows, T, F, theta, seasons[..i])
    decreases |seasons| - i
  {
    if i < |seasons| {
      var j := i + 1;
      assert seasons[..j][..i] == seasons[..i];
      assert ResultsFor(pow38, pow014, rows, T, F, theta, seasons[..j])
          == NextResults(pow38, pow014, rows, T, F, theta,
                         ResultsFor(pow38, pow014, rows, T, F, theta, seasons[..i]), seasons[i]);
      ResultsForFailureStays(pow38, pow014, rows, T, F, theta, seasons, j);
    } else {
      assert seasons[..i] == seasons;
    }
  }

  /** Processing one more season extends the table by that season's step. */
  lemma ResultsForStep(pow38: real -> real, pow014: real -> real, rows: seq<HourlyRecord>,
                       T: real, F: real, theta: real, seasons: seq<int>, i: int)
    requires 0 <= i < |seasons|
    ensures ResultsFor(pow38, pow014, rows, T, F, theta, seasons[..i + 1])
         == NextResults(pow38, pow014, rows, T, F, theta,
                        ResultsFor(pow38, pow014, rows, T, F, theta, seasons[..i]), seasons[i])
  {
    assert seasons[..i + 1][..i] == seasons[..i];
  }

  /**
   * One pass of compute_yearly_results' loop body: an empty window is skipped,
   * otherwise the season's row is appended, or the transport's error returned.
   */
  method SeasonStep(pow38: real -> real, pow014: real -> real, rows: seq<HourlyRecord>,
                    T: real, F: real, theta: real, acc: seq<SeasonResult>, s: int)
    returns (next: Result<seq<SeasonResult>, Error>)
    ensures next == NextResults(pow38, pow014, rows, T, F, theta, Success(acc), s)
  {
    var window := WindowRows(rows, s);
    if window == [] {
      return Success(acc);
    }
    var totalSwe := TotalSwe(window);
    var r := SnowTransport(pow38, pow014, T, F, theta, totalSwe, Speeds(window), HourSeconds);
    if r.Failure? {
      return Failure(r.error);
    }
    next := Success(acc + [SeasonResult(SeasonLabel(s), r.value)]);
  }

  /**
   * compute_yearly_results: one row per non-empty season, in ascending
   * season order, each with the season's total Swe and wind speeds.
   */
  method YearlyResults(pow38: real -> real, pow014: real -> real, rows: seq<HourlyRecord>,
                       T: real, F: real, theta: real) returns (out: Result<seq<SeasonResult>, Error>)
    ensures out == ResultsFor(pow38, pow014, rows, T, F, theta, SortedSeasons(rows))
  {
    var seasons := SortedSeasons(rows);
    var results: seq<SeasonResult> := [];
    for i := 0 to |seasons|
      invariant ResultsFor(pow38, pow014, rows, T, F, theta, seasons[..i]) == Success(results)
    {
      ResultsForStep(pow38, pow014, rows, T, F, theta, seasons, i);
      var next := SeasonStep(pow38, pow014, rows, T, F, theta, results, seasons[i]);
      if next.Failure? {
        ResultsForFailureStays(pow38, pow014, rows, T, F, theta, seasons, i + 1);
        assert seasons[..|seasons|] == seasons;
        return next;
      }
      results := next.value;
    }
    assert seasons[..|seasons|] == seasons;
    out := Success(results);
  }

  /** The transport of season s, computed from the rows of its group. */
  function SeasonTransport(pow38: real -> real, pow014: real -> real, rows: seq<HourlyRecord>,
                           T: real, F: real, theta: real, s: int): Result<Transport, Error>
  {
    var g := GroupRows(rows, s);
    SnowTransport(pow38, pow014, T, F, theta, TotalSwe(g), Speeds(g), HourSeconds)
  }

  /** The row of the yearly table for season s, computed from the rows of its group. */
  function SeasonRow(pow38: real -> real, pow014: real -> real, rows: seq<HourlyRecord>,
                     T: real, F: real, theta: real, s: int): SeasonResult
    requires T != 0.0
  {
    SeasonResult(SeasonLabel(s), SeasonTransport(pow38, pow014, rows, T, F, theta, s).value)
  }

  lemma {:induction false} ResultsForAllSeasons(pow38: real -> real, pow014: real -> real, rows: seq<HourlyRecord>,
                                                T: real, F: real, theta: real, seasons: seq<int>)
    requires AllValid(rows) && T != 0.0
    requires forall i :: 0 <= i < |seasons| ==> GroupRows(rows, seasons[i]) != []
    ensures var r := ResultsFor(pow38, pow014, rows, T, F, theta, seasons);
            && r.Success? && |r.value| == |seasons|
            && forall i :: 0 <= i < |seasons| ==>
                 r.value[i] == SeasonRow(pow38, pow014, rows, T, F, theta, seasons[i])
  {
    if seasons != [] {
      var n := |seasons| - 1;
      ResultsForAllSeasons(pow38, pow014, rows, T, F, theta, seasons[..n]);
      WindowIsGroup(rows, seasons[n]);
      var acc := ResultsFor(pow38, pow014, rows, T, F, theta, seasons[..n]).value;
      var t := SeasonTransport(pow38, pow014, rows, T, F, theta, seasons[n]);
      assert t.Success?;
      var res := acc + [SeasonResult(SeasonLabel(seasons[n]), t.value)];
      assert NextResults(pow38, pow014, rows, T, F, theta, Success(acc), seasons[n]) == Success(res);
      assert ResultsFor(pow38, pow014, rows, T, F, theta, seasons) == Success(res);
      forall i | 0 <= i < |seasons|
        ensures res[i] == SeasonRow(pow38, pow014, rows, T, F, theta, seasons[i])
      {
        if i < n {
          var si := seasons[..n][i];
          assert si == seasons[i];
          assert acc[i] == SeasonRow(pow38, pow014, rows, T, F, theta, si);
          assert res[i] == acc[i];
        } else {
          assert i == n;
          assert res[n] == SeasonResult(SeasonLabel(seasons[n]), t.value);
          assert SeasonRow(pow38, pow014, rows, T, F, theta, seasons[n]) == res[n];
        }
      }
    }
  }

  /**
   * With a non-zero T the yearly table has one row per season present in
   * the series, ascending, labelled "s-(s+1)" and computed from exactly the
   * rows of that season.
   */
  lemma YearlyResultsComplete(pow38: real -> real, pow014: real -> real, rows: seq<HourlyRecord>,
                              T: real, F: real, theta: real)
    requires AllValid(rows) && T != 0.0
    ensures var seasons := SortedSeasons(rows);
            var r := ResultsFor(pow38, pow014, rows, T, F, theta, seasons);
            && r.Success? && |r.value| == |seasons|
            && forall i :: 0 <= i < |seasons| ==>
                 r.value[i] == SeasonRow(pow38, pow014, rows, T, F, theta, seasons[i])
  {
    var seasons := SortedSeasons(rows);
    forall i | 0 <= i < |seasons|
      ensures GroupRows(rows, seasons[i]) != []
    {
      var s := seasons[i];
      assert s in seasons;
      var j :| 0 <= j < |rows| && Season(rows[j].time) == s;
      GroupOfOwnSeason(rows, j);
    }
    ResultsForAllSeasons(pow38, pow014, rows, T, F, theta, seasons);
  }

  /** With T == 0 any non-empty series makes the computation fail, as `F / T` raises. */
  lemma {:induction false} YearlyResultsZeroT(pow38: real -> real, pow014: real -> real, rows: seq<HourlyRecord>,
                                              F: real, theta: real)
    requires AllValid(rows) && rows != []
    ensures ResultsFor(pow38, pow014, rows, 0.0, F, theta, SortedSeasons(rows)).Failure?
  {
    var seasons := SortedSeasons(rows);
    var s := Season(rows[0].time);
    assert s in seasons;
    var i :| 0 <= i < |seasons| && seasons[i] == s;
    GroupOfOwnSeason(rows, 0);
    WindowIsGroup(rows, s);
    ResultsForStep(pow38, pow014, rows, 0.0, F, theta, seasons, i);
    ResultsForFailureStays(pow38, pow014, rows, 0.0, F, theta, seasons, i + 1);
  }

  // ---------------------------------------------------------------------------
  // Average directional distribution
  // ---------------------------------------------------------------------------

  /** The sector totals of each season of `seasons`, from the rows of its group. */
  function SeasonSectors(pow38: real -> real, rows: seq<HourlyRecord>, seasons: seq<int>): (vs: seq<seq<real>>)
    ensures |vs| == |seasons| && forall i :: 0 <= i < |vs| ==> |vs[i]| == SectorCount
  {
    seq(|seasons|, i requires 0 <= i < |seasons| =>
      var g := GroupRows(rows, seasons[i]);
      SectorSums(pow38, Speeds(g), Directions(g), HourSeconds))
  }

  /** One more season appends its sector totals. */
  lemma SeasonSectorsStep(pow38: real -> real, rows: seq<HourlyRecord>, seasons: seq<int>, i: int)
    requires 0 <= i < |seasons|
    ensures var g := GroupRows(rows, seasons[i]);
            SeasonSectors(pow38, rows, seasons[..i + 1])
            == SeasonSectors(pow38, rows, seasons[..i]) + [SectorSums(pow38, Speeds(g), Directions(g), HourSeconds)]
  {
    var g := GroupRows(rows, seasons[i]);
    var a, b := SeasonSectors(pow38, rows, seasons[..i + 1]), SeasonSectors(pow38, rows, seasons[..i]);
    var c := b + [SectorSums(pow38, Speeds(g), Directions(g), HourSeconds)];
    forall j | 0 <= j < |a|
      ensures a[j] == c[j]
    {
      assert seasons[..i + 1][j] == seasons[j];
    }
  }

  predicate AllSectorVectors(vs: seq<seq<real>>)
  {
    forall i :: 0 <= i < |vs| ==> |vs[i]| == SectorCount
  }

  /** Slot k of every vector, in order. */
  function Column(vs: seq<seq<real>>, k: int): seq<real>
    requires AllSectorVectors(vs) && 0 <= k < SectorCount
  {
    seq(|vs|, i requires 0 <= i < |vs| => vs[i][k])
  }

  lemma {:induction false} SumSnoc(s: seq<real>, x: real)
    ensures Sum(s + [x]) == Sum(s) + x
  {
    if s == [] {
      assert [] + [x] == [x];
      assert [x][1..] == [];
    } else {
      assert (s + [x])[1..] == s[1..] + [x];
      SumSnoc(s[1..], x);
    }
  }

  /** Each column gains the last vector's entry when a vector is appended. */
  lemma ColumnSnoc(vs: seq<seq<real>>)
    requires AllSectorVectors(vs) && vs != []
    ensures var n := |vs| - 1;
            forall k :: 0 <= k < SectorCount ==> Sum(Column(vs, k)) == Sum(Column(vs[..n], k)) + vs[n][k]
  {
    var n := |vs| - 1;
    forall k | 0 <= k < SectorCount
      ensures Sum(Column(vs, k)) == Sum(Column(vs[..n], k)) + vs[n][k]
    {
      assert Column(vs, k) == Column(vs[..n], k) + [vs[n][k]];
      SumSnoc(Column(vs[..n], k), vs[n][k]);
    }
  }

  /** Element-wise sum of the 16-vectors: slot k is the sum of the vectors' slot k. */
  function ColumnTotals(vs: seq<seq<real>>): (t: seq<real>)
    requires AllSectorVectors(vs)
    ensures |t| == SectorCount
    ensures forall k :: 0 <= k < SectorCount ==> t[k] == Sum(Column(vs, k))
  {
    if vs == [] then seq(SectorCount, _ => 0.0)
    else
      var n := |vs| - 1;
      var prev := ColumnTotals(vs[..n]);
      ColumnSnoc(vs);
      seq(SectorCount, k requires 0 <= k < SectorCount => prev[k] + vs[n][k])
  }

  /** `np.mean(vs, axis=0)` for a non-empty list of 16-vectors: slot k is the mean of the vectors' slot k. */
  function ColumnMean(vs: seq<seq<real>>): (m: seq<real>)
    requires AllSectorVectors(vs) && vs != []
    ensures |m| == SectorCount
    ensures forall k :: 0 <= k < SectorCount ==> m[k] == Sum(Column(vs, k)) / |vs| as real
  {
    var totals := ColumnTotals(vs);
    seq(SectorCount, k requires 0 <= k < SectorCount => totals[k] / |vs| as real)
  }

  /**
   * compute_average_sector: the sector totals of every season, averaged slot
   * by slot; the mean of no seasons is NaN in the source and None here.
   */
  method AverageSector(pow38: real -> real, rows: seq<HourlyRecord>) returns (avg: Option<seq<real>>)
    ensures var seasons := SortedSeasons(rows);
            avg == if seasons == [] then None else Some(ColumnMean(SeasonSectors(pow38, rows, seasons)))
  {
    var seasons := SortedSeasons(rows);
    var sectorsList: seq<seq<real>> := [];
    for i := 0 to |seasons|
      invariant sectorsList == SeasonSectors(pow38, rows, seasons[..i])
    {
      var group := GroupRows(rows, seasons[i]);
      var ws, wdir := Speeds(group), Directions(group);
      var sectors := SectorTransport(pow38, ws, wdir, HourSeconds);
      assert ws[..|ws|] == ws && wdir[..|wdir|] == wdir;
      SeasonSectorsStep(pow38, rows, seasons, i);
      sectorsList := sectorsList + [sectors];
    }
    assert seasons[..|seasons|] == seasons;
    if sectorsList == [] {
      avg := None;
    } else {
      avg := Some(ColumnMean(sectorsList));
    }
  }

  /** The total of all the vectors' entries. */
  function GrandTotal(vs: seq<seq<real>>): real
  {
    if vs == [] then 0.0 else GrandTotal(vs[..|vs| - 1]) + Sum(vs[|vs| - 1])
  }

  lemma {:induction false} SumOfAdd(a: seq<real>, b: seq<real>)
    requires |a| == |b|
    ensures Sum(seq(|a|, k requires 0 <= k < |a| => a[k] + b[k])) == Sum(a) + Sum(b)
  {
    if a != [] {
      var c := seq(|a|, k requires 0 <= k < |a| => a[k] + b[k]);
      assert c[1..] == seq(|a[1..]|, k requires 0 <= k < |a[1..]| => a[1..][k] + b[1..][k]);
      SumOfAdd(a[1..], b[1..]);
    }
  }

  lemma {:induction false} SumOfDivided(a: seq<real>, c: real)
    requires c > 0.0
    ensures Sum(seq(|a|, k requires 0 <= k < |a| => a[k] / c)) == Sum(a) / c
  {
    if a != [] {
      var d := seq(|a|, k requires 0 <= k < |a| => a[k] / c);
      assert d[1..] == seq(|a[1..]|, k requires 0 <= k < |a[1..]| => a[1..][k] / c);
      SumOfDivided(a[1..], c);
      assert a[0] / c + Sum(a[1..]) / c == (a[0] + Sum(a[1..])) / c;
    }
  }

  lemma {:induction false} ColumnTotalsSum(vs: seq<seq<real>>)
    requires AllSectorVectors(vs)
    ensures Sum(ColumnTotals(vs)) == GrandTotal(vs)
  {
    if vs == [] {
      SumOfZeros(SectorCount);
    } else {
      var n := |vs| - 1;
      ColumnTotalsSum(vs[..n]);
      SumOfAdd(ColumnTotals(vs[..n]), vs[n]);
    }
  }

  /** The entries of the mean vector add up to the mean of the vectors' totals. */
  lemma ColumnMeanSum(vs: seq<seq<real>>)
    requires AllSectorVectors(vs) && vs != []
    ensures Sum(ColumnMean(vs)) == GrandTotal(vs) / |vs| as real
  {
    ColumnTotalsSum(vs);
    SumOfDivided(ColumnTotals(vs), |vs| as real);
  }

  /** The mean of the seasons' transport potentials. */
  function MeanSeasonQupot(pow38: real -> real, rows: seq<HourlyRecord>, seasons: seq<int>): real
    requires seasons != []
  {
    PotentialTotal(pow38, rows, seasons) / |seasons| as real
  }

  function PotentialTotal(pow38: real -> real, rows: seq<HourlyRecord>, seasons: seq<int>): real
  {
    if seasons == [] then 0.0
    else
      var n := |seasons| - 1;
      PotentialTotal(pow38, rows, seasons[..n]) + Qupot(pow38, Speeds(GroupRows(rows, seasons[n])), HourSeconds)
  }

  lemma {:induction false} GrandTotalOfSeasons(pow38: real -> real, rows: seq<HourlyRecord>, seasons: seq<int>)
    ensures GrandTotal(SeasonSectors(pow38, rows, seasons)) == PotentialTotal(pow38, rows, seasons)
  {
    if seasons != [] {
      var n := |seasons| - 1;
      var vs := SeasonSectors(pow38, rows, seasons);
      assert vs[..n] == SeasonSectors(pow38, rows, seasons[..n]);
      GrandTotalOfSeasons(pow38, rows, seasons[..n]);
      var g := GroupRows(rows, seasons[n]);
      SectorSumsTotal(pow38, Speeds(g), Directions(g), HourSeconds);
    }
  }

  /**
   * The wind rose shows, in total over its 16 sectors, the average
   * transport potential of a season.
   */
  lemma AverageSectorTotal(pow38: real -> real, rows: seq<HourlyRecord>)
    requires SortedSeasons(rows) != []
    ensures var seasons := SortedSeasons(rows);
            Sum(ColumnMean(SeasonSectors(pow38, rows, seasons))) == MeanSeasonQupot(pow38, rows, seasons)
  {
    var seasons := SortedSeasons(rows);
    ColumnMeanSum(SeasonSectors(pow38, rows, seasons));
    GrandTotalOfSeasons(pow38, rows, seasons);
  }

  /** Averaging keeps every slot non-negative when every season's slots are. */
  lemma {:induction false} ColumnMeanNonNegative(vs: seq<seq<real>>)
    requires AllSectorVectors(vs) && vs != []
    requires forall i :: 0 <= i < |vs| ==> AllNonNegative(vs[i])
    ensures AllNonNegative(ColumnMean(vs))
  {
    ColumnTotalsNonNegative(vs);
  }

  lemma {:induction false} ColumnTotalsNonNegative(vs: seq<seq<real>>)
    requires AllSectorVectors(vs)
    requires forall i :: 0 <= i < |vs| ==> AllNonNegative(vs[i])
    ensures AllNonNegative(ColumnTotals(vs))
  {
    if vs != [] {
      ColumnTotalsNonNegative(vs[..|vs| - 1]);
    }
  }
}

=== FILE: text.dfy ===
/**
 * The pieces of Python's `str` behaviour the dashboard relies on:
 * `str.upper` (ASCII letters), `str.split()` with no separator and
 * `"".join`, `str(int)` and the `02x` format specification.
 */
module Text {

  /** The characters Python's `str.isspace` accepts, which `str.split()` splits on. */
  predicate IsSpace(c: char)
  {
    c == ' ' || ('\t' <= c <= '\r') || ('\U{1c}' <= c <= '\U{1f}')
    || c == '\U{85}' || c == '\U{a0}' || c == '\U{1680}'
    || ('\U{2000}' <= c <= '\U{200a}') || c == '\U{2028}' || c == '\U{2029}'
    || c == '\U{202f}' || c == '\U{205f}' || c == '\U{3000}'
  }

  predicate IsLower(c: char)
  {
    'a' <= c <= 'z'
  }

  predicate NoSpace(s: string)
  {
    forall i :: 0 <= i < |s| ==> !IsSpace(s[i])
  }

  predicate NoLower(s: string)
  {
    forall i :: 0 <= i < |s| ==> !IsLower(s[i])
  }

  /** Upper-case mapping of one character (ASCII letters only). */
  function UpperChar(c: char): (u: char)
    ensures !IsLower(u)
    ensures IsLower(c) || u == c
    ensures IsSpace(u) <==> IsSpace(c)
  {
    if IsLower(c) then (c as int - 32) as char else c
  }

  /** `s.upper()` */
  function Upper(s: string): (u: string)
    ensures |u| == |s| && NoLower(u)
    ensures forall i :: 0 <= i < |s| ==> u[i] == UpperChar(s[i])
  {
    seq(|s|, i requires 0 <= i < |s| => UpperChar(s[i]))
  }

  lemma UpperOfUpper(s: string)
    requires NoLower(s)
    ensures Upper(s) == s
  {
  }

  /** The characters of `s` that are not whitespace, in their order. */
  function StripSpaces(s: string): (r: string)
    ensures NoSpace(r) && |r| <= |s|
    ensures forall c :: c in r ==> c in s
    ensures NoLower(s) ==> NoLower(r)
  {
    if s == [] then []
    else (if IsSpace(s[0]) then [] else [s[0]]) + StripSpaces(s[1..])
  }

  lemma {:induction false} StripSpacesAppend(a: string, b: string)
    ensures StripSpaces(a + b) == StripSpaces(a) + StripSpaces(b)
  {
    if a == [] {
      assert a + b == b;
    } else {
      var head := if IsSpace(a[0]) then [] else [a[0]];
      assert (a + b)[0] == a[0];
      assert (a + b)[1..] == a[1..] + b;
      StripSpacesAppend(a[1..], b);
      assert StripSpaces(a + b) == head + StripSpaces(a[1..] + b);
      assert StripSpaces(a) == head + StripSpaces(a[1..]);
    }
  }

  lemma {:induction false} StripSpacesOfNoSpace(s: string)
    requires NoSpace(s)
    ensures StripSpaces(s) == s
  {
    if s != [] {
      StripSpacesOfNoSpace(s[1..]);
    }
  }

  /** The longest prefix of `s` without whitespace. */
  function LeadingWord(s: string): (w: string)
    ensures |w| <= |s| && w == s[..|w|] && NoSpace(w)
    ensures |w| < |s| ==> IsSpace(s[|w|])
  {
    if s == [] || IsSpace(s[0]) then [] else [s[0]] + LeadingWord(s[1..])
  }

  /** `s.split()`: the maximal runs of non-whitespace characters. */
  function Split(s: string): (words: seq<string>)
    ensures forall i :: 0 <= i < |words| ==> words[i] != [] && NoSpace(words[i])
    decreases |s|
  {
    if s == [] then []
    else if IsSpace(s[0]) then Split(s[1..])
    else
      var w := LeadingWord(s);
      [w] + Split(s[|w|..])
  }

  /** `"".join(words)`: the words one after the other, so words without whitespace give text without whitespace. */
  function Join(words: seq<string>): (r: string)
    ensures (forall i :: 0 <= i < |words| ==> NoSpace(words[i])) ==> NoSpace(r)
  {
    if words == [] then [] else words[0] + Join(words[1..])
  }

  /** Splitting on whitespace and joining with "" deletes exactly the whitespace. */
  lemma {:induction false} JoinSplit(s: string)
    ensures Join(Split(s)) == StripSpaces(s)
    decreases |s|
  {
    if s == [] {
    } else if IsSpace(s[0]) {
      JoinSplit(s[1..]);
    } else {
      var w := LeadingWord(s);
      var rest := s[|w|..];
      JoinSplit(rest);
      assert Split(s) == [w] + Split(rest);
      assert Join(Split(s)) == w + Join(Split(rest));
      assert s == w + rest;
      StripSpacesAppend(w, rest);
      StripSpacesOfNoSpace(w);
    }
  }

  // ---------------------------------------------------------------------------
  // Positional notation
  // ---------------------------------------------------------------------------

  const Digits: string := "0123456789abcdef"

  /** The value of a lower-case digit, or -1 for any other character. */
  function DigitValue(c: char): (v: int)
    ensures -1 <= v < 16
    ensures 0 <= v ==> Digits[v] == c
  {
    if '0' <= c <= '9' then c as int - '0' as int
    else if 'a' <= c <= 'f' then c as int - 'a' as int + 10
    else -1
  }

  predicate IsDigitIn(c: char, base: nat)
  {
    0 <= DigitValue(c) < base
  }

  /** The two bases the dashboard prints in. */
  predicate IsBase(base: nat)
  {
    base == 10 || base == 16
  }

  lemma DigitsRead(k: nat)
    requires k < 16
    ensures DigitValue(Digits[k]) == k
  {
  }

  lemma DivStep(n: nat, base: nat)
    requires IsBase(base) && base <= n
    ensures n / base < n && n % base < base
    ensures n == (n / base) * base + n % base
  {
    if base == 10 {
    } else {
    }
  }

  /** The digits of `n` in `base`, most significant first, without leading zeros. */
  function ToBase(n: nat, base: nat): (s: string)
    requires IsBase(base)
    ensures 1 <= |s|
    ensures forall i :: 0 <= i < |s| ==> IsDigitIn(s[i], base)
    ensures |s| > 1 ==> s[0] != '0'
    decreases n
  {
    if n < base then
      DigitsRead(n);
      [Digits[n]]
    else
      DivStep(n, base);
      DigitsRead(n % base);
      ToBase(n / base, base) + [Digits[n % base]]
  }

  /** The number a string of digits denotes in `base`. */
  function FromBase(s: string, base: nat): int
  {
    if s == [] then 0
    else FromBase(s[..|s| - 1], base) * base + DigitValue(s[|s| - 1])
  }

  lemma {:induction false} FromToBase(n: nat, base: nat)
    requires IsBase(base)
    ensures FromBase(ToBase(n, base), base) == n
    decreases n
  {
    var s := ToBase(n, base);
    if n < base {
      DigitsRead(n);
      assert s[..0] == [];
    } else {
      DivStep(n, base);
      DigitsRead(n % base);
      FromToBase(n / base, base);
      assert s[..|s| - 1] == ToBase(n / base, base);
    }
  }

  /**
   * `str(i)` for a Python int: the decimal digits of |i| without leading
   * zeros, after a "-" when i is negative.
   */
  function Decimal(i: int): (s: string)
    ensures 0 <= i ==> (forall k :: 0 <= k < |s| ==> IsDigitIn(s[k], 10)) && FromBase(s, 10) == i
    ensures 0 <= i && |s| > 1 ==> s[0] != '0'
    ensures i < 0 ==> 2 <= |s| && s[0] == '-' && FromBase(s[1..], 10) == -i
    ensures i < 0 ==> (forall k :: 1 <= k < |s| ==> IsDigitIn(s[k], 10)) && (|s| > 2 ==> s[1] != '0')
  {
    if i < 0 then
      var n: nat := -i;
      NegativeDigits(n);
      "-" + ToBase(n, 10)
    else
      FromToBase(i, 10);
      ToBase(i, 10)
  }

  lemma NegativeDigits(n: nat)
    requires 0 < n
    ensures var s := "-" + ToBase(n, 10);
            && 2 <= |s| && s[0] == '-' && FromBase(s[1..], 10) == n
            && (forall k :: 1 <= k < |s| ==> IsDigitIn(s[k], 10)) && (|s| > 2 ==> s[1] != '0')
  {
    var d := ToBase(n, 10);
    var s := "-" + d;
    FromToBase(n, 10);
    assert s[1..] == d;
    forall k | 1 <= k < |s| ensures IsDigitIn(s[k], 10) {
      assert s[k] == d[k - 1];
    }
  }

  /** Two different naturals print differently. */
  lemma DecimalInjective(a: nat, b: nat)
    requires Decimal(a) == Decimal(b)
    ensures a == b
  {
  }

  /** A hex digit padded with one leading zero reads back as the digit's value. */
  lemma PaddedDigit(n: nat)
    requires n < 16
    ensures ToBase(n, 16) == [Digits[n]]
    ensures var s := "0" + [Digits[n]];
            IsDigitIn(s[0], 16) && IsDigitIn(s[1], 16) && FromBase(s, 16) == n
  {
    DigitsRead(n);
    var s := "0" + [Digits[n]];
    assert s[..1] == "0";
    assert s[..1][..0] == [];
    assert FromBase(s[..1], 16) == 0;
    assert FromBase(s, 16) == FromBase(s[..1], 16) * 16 + DigitValue(s[1]);
  }

  /** A number from 16 to 255 has exactly two hex digits. */
  lemma TwoHexDigits(n: nat)
    requires 16 <= n < 256
    ensures |ToBase(n, 16)| == 2
  {
    DivStep(n, 16);
    assert ToBase(n / 16, 16) == [Digits[n / 16]];
  }

  lemma NegativeHex(n: nat)
    requires 0 < n
    ensures var s := "-" + ToBase(n, 16);
            2 <= |s| && s[0] == '-' && FromBase(s[1..], 16) == n
  {
    FromToBase(n, 16);
    assert ("-" + ToBase(n, 16))[1..] == ToBase(n, 16);
  }

  /**
   * `format(n, '02x')`: lower-case hexadecimal padded with zeros to two
   * characters, a "-" before the digits of |n| when n is negative.
   */
  function Hex02(n: int): (s: string)
    ensures 2 <= |s|
    ensures 0 <= n ==> (forall i :: 0 <= i < |s| ==> IsDigitIn(s[i], 16)) && FromBase(s, 16) == n
    ensures 0 <= n < 256 ==> |s| == 2
    ensures n < 0 ==> s[0] == '-' && FromBase(s[1..], 16) == -n
  {
    if n < 0 then
      var m: nat := -n;
      NegativeHex(m);
      "-" + ToBase(m, 16)
    else
      var m: nat := n;
      var h := ToBase(m, 16);
      FromToBase(m, 16);
      if |h| < 2 then
        assert m < 16;
        PaddedDigit(m);
        "0" + h
      else if m < 256 then
        TwoHexDigits(m);
        h
      else
        h
  }
}

=== FILE: wrappers.dfy ===
/** Option and Result, used for Python's None and for the exceptions the model keeps. */
module Wrappers {

  datatype Option<+T> = None | Some(value: T)

  datatype Result<+R, +E> = Success(value: R) | Failure(error: E)
}
